=== FILE: README.md ===
# Tactile and visual object localization: a Dafny model

This project models the core of a robot object-localization system. It has three parts.

- **Unscented particle filter.** Particles are 6-D object poses (position and three
  Euler angles). The filter is initialised uniformly in a box and over the angle
  ranges. Each step reweighs the particles by a likelihood computed over a sliding
  window of measurement batches, then normalises the weights. On an intermediate
  step it records the most significant particle and resamples systematically,
  jittering each child inside its parent's covariance box. On the last step it
  picks the densest particle as the result. The filter also reads its measurement
  log from an OFF-style text file.
- **Localizer module.** This is the controller around the filter. It preprocesses
  point clouds (outlier removal, subsampling, shuffling) and cuts them into
  measurement batches. It reads finger contacts from the real skin, from the
  simulated skin and from the "springy" finger models. It turns contacts into
  contact points and decides whether a tactile step runs. It processes the
  vocab-encoded commands of its input port and serves its RPC interface.
- **Manipulation demo.** This is the state machine that moves the robot hand
  (approach, grasp, pour, hand shifts, rest and home postures). It has its RPC
  handlers, the status transitions its periodic thread makes, and the hand shift
  and trajectory guards.

Randomness is handled the same way throughout: every random draw of the source
(`Rand::scalar`) is an input to the model, a real number in the unit interval.
Calls into the robot interfaces become boolean or optional inputs.

Dafny modules:

| module | file | models |
|---|---|---|
| `Common` | common.dfy | option type, 3-vectors, sums of reals, the dynamic `Value` of YARP bottles |
| `Weights` | upf_weights.dfy | weight update, normalisation, sigma-point weights |
| `Schedule` | upf_schedule.dfy | number of steps, measurement batch indices, likelihood window |
| `Particles` | upf_particle.dfy | particles, uniform draws |
| `Resampling` | upf_resampling.dfy | systematic resampling, jitter, densest and most significant particle |
| `Filter` | upf_filter.dfy | init, step, solve |
| `Reader` | upf_reader.dfy | the measurement-file reader, as a line machine and as a reference definition |
| `Cloud` | localizer_cloud.dfy | subsampling, shuffling, preprocessing, batching of the point cloud |
| `Contacts` | localizer_contacts.dfy | finger contacts from skin, simulated skin and springy fingers; contact points; the tactile step |
| `Commands` | localizer_commands.dfy | vocab encoding, port commands, RPC replies |
| `Demo` | manipulation_demo.dfy | demo statuses, the periodic transition function, hand shifts |
| `DemoRpc` | manipulation_rpc.dfy | the demo's RPC handlers |

## Model

| member | source | states |
|---|---|---|
| Common.ToUpper | src/unscentedParticleFilter.cpp:972-974 | the header test upper-cases each character in place; the length and every position are kept |
| Common.AsInt | src/unscentedParticleFilter.cpp:981 | a point count read as a double is truncated toward zero: its magnitude is the floor of the double's magnitude, and its sign agrees |
| Weights.Normalize | src/unscentedParticleFilter.cpp:876-881 | each normalised weight times the old total is the old weight, and the normalised weights sum to one |
| Weights.NormalizeIdempotent | src/unscentedParticleFilter.cpp:876-881 | normalising weights that already sum to one changes nothing |
| Weights.NormalizeBounded | src/unscentedParticleFilter.cpp:876-881 | non-negative weights with a positive total normalise into [0, 1] |
| Weights.ComputeWeights | src/unscentedParticleFilter.cpp:185-188 | the loop leaves every weight multiplied by its likelihood and accumulates their total |
| Weights.NormalizeWeights | src/unscentedParticleFilter.cpp:190-193 | the loop divides every weight by the total, so the weights sum to one, and accumulates the sum of their squares |
| Weights.SigmaWeightsDefined | src/unscentedParticleFilter.cpp:1078 | the sigma-point weights divide by 6 + lambda, which is non-zero exactly when alpha is not 0 and kappa is not −6 |
| Weights.SigmaPointWeights | src/unscentedParticleFilter.cpp:721-728 | 2n+1 weights: the central mean and covariance weights, equal side weights, and mean weights summing to one |
| Schedule.TotalSteps | src/unscentedParticleFilter.cpp:1215-1216 | the step count is the number of whole batches of p/3 points in the log |
| Schedule.BatchInsideLog | src/unscentedParticleFilter.cpp:757 | every measurement a step from 1 to the total indexes lies inside the log |
| Schedule.BatchesAdjacent | src/unscentedParticleFilter.cpp:757 | the batch of step t+1 starts right after the last point of step t |
| Schedule.WindowLength | src/unscentedParticleFilter.cpp:341-349 | a width equal to the particle count covers every batch read so far; any other width never starts after t, covers exactly the last width batches once t reaches the width, and every batch before that |
| Schedule.WindowIndicesBelow | src/unscentedParticleFilter.cpp:357-367 | the likelihood visits (t − first) × batch-size measurements, all from the first to the t-th batch |
| Schedule.WindowInsideLog | src/unscentedParticleFilter.cpp:357-367 | no measurement the likelihood visits lies past the end of the log |
| Schedule.LikelihoodWindow | src/unscentedParticleFilter.cpp:357-384 | the loop visits exactly the window's indices in order and counts the window's steps |
| Schedule.WindowExponentBounds | src/unscentedParticleFilter.cpp:369-384 | the likelihood exponent is never positive, and the terminal step's exponent is at most the intermediate one |
| Particles.Uniform | src/unscentedParticleFilter.cpp:56-61 | a uniform draw lies between its two bounds whatever their order, and draws 0 and 1 give the bounds |
| Particles.BoxDraw | src/unscentedParticleFilter.cpp:619-626 | a draw in [c − s, c + s] is within abs(s) of the centre |
| Particles.WeightsOf | src/unscentedParticleFilter.cpp:869-881 | the weight vector has one entry per particle, the particle's weight |
| Resampling.CumulativeFirst | src/unscentedParticleFilter.cpp:597 | the cumulative sum starts with the first weight |
| Resampling.CumulativeStep | src/unscentedParticleFilter.cpp:599-602 | each cumulative entry is the previous one plus its weight |
| Resampling.CumulativeLast | src/unscentedParticleFilter.cpp:597-603 | the cumulative sum ends at the total weight |
| Resampling.CumulativeMonotone | src/unscentedParticleFilter.cpp:597-603 | with non-negative weights the cumulative sum never decreases |
| Resampling.CombBelowOne | src/unscentedParticleFilter.cpp:606-610 | with a start of at most 1/N, every comb point is at most 1 |
| Resampling.CombIncreasing | src/unscentedParticleFilter.cpp:606-610 | the comb points are strictly increasing |
| Resampling.SelectParents | src/unscentedParticleFilter.cpp:597-615 | the scan picks for comb point j the first index whose cumulative weight reaches it; the parents never decrease and stay below N |
| Resampling.ZeroWeightNeverParent | src/unscentedParticleFilter.cpp:612-615 | a particle other than the first is picked only if its weight is positive |
| Resampling.Jitter | src/unscentedParticleFilter.cpp:619-627 | each child coordinate lies within the parent's covariance diagonal of the parent's coordinate, and the child's weight is 1/N |
| Resampling.JitterAll | src/unscentedParticleFilter.cpp:608-629 | N children, each inside its parent's box, with uniform weights 1/N |
| Resampling.UniformPopulationSum | src/unscentedParticleFilter.cpp:627 | N weights of 1/N sum to one |
| Resampling.Resample | src/unscentedParticleFilter.cpp:584-630 | systematic resampling: monotone parents reached by the comb, jittered children, and weights that again sum to one |
| Resampling.FirstReachingUnique | src/unscentedParticleFilter.cpp:612-615 | the scan's stopping index for a comb point is unique: only one index is the first whose cumulative weight reaches it |
| Resampling.CombParentsUnique | src/unscentedParticleFilter.cpp:606-615 | the comb fixes the parents: two parent lists that both pick, for every comb point, the first index reaching it are equal |
| Resampling.ResampledUnique | src/unscentedParticleFilter.cpp:584-630 | the weights and the draws fix the resampled population: two populations resampled from the same particles with the same draws are equal |
| Resampling.DensestParticle | src/unscentedParticleFilter.cpp:554-564 | the arg-max keeps the first strict maximum and falls back to particle 0 when no score is positive |
| Resampling.FirstMaxOrZeroUnique | src/unscentedParticleFilter.cpp:554-564 | the terminal step's choice rule names exactly one particle |
| Resampling.MostSignificantIndex | src/unscentedParticleFilter.cpp:884-901 | the chosen weight is maximal, and no later particle ties it (the last maximum wins) |
| Resampling.LastMaxUnique | src/unscentedParticleFilter.cpp:884-901 | the most-significant choice rule names exactly one particle |
| Resampling.TieBreaksOnUniqueMax | src/unscentedParticleFilter.cpp:554-564 | when one particle alone carries the maximum, the densest-particle rule and the most-significant rule pick it if it is positive; otherwise the densest-particle rule falls back to particle 0 |
| Filter.InitialPoseInRegion | src/unscentedParticleFilter.cpp:49-63 | every initial pose lies in the centre ± radius box and in the angle ranges [0, 2π], [0, π], [0, 2π] |
| Filter.Init | src/unscentedParticleFilter.cpp:66-83 | N well-formed particles in the region, covariance P0, uniform weights summing to one, step count 0 |
| Filter.Corrected | src/unscentedParticleFilter.cpp:180-193 | the reweighed population keeps each particle's covariance and takes its corrected pose and new weight |
| Filter.ReweightPositive | src/unscentedParticleFilter.cpp:185-193 | positive weights times positive likelihoods have a positive total, so normalisation is defined and stays positive |
| Filter.Reweighed | src/unscentedParticleFilter.cpp:180-193 | after correction and reweighing the population is valid, takes the corrected poses, keeps the covariances, and its weights are the normalised products of old weights and likelihoods, summing to one |
| Filter.Reweigh | src/unscentedParticleFilter.cpp:180-193 | the weight-update and normalisation loops compute exactly the reweighed population |
| Filter.Select | src/unscentedParticleFilter.cpp:904-925 | the pose of the last particle of largest weight is appended to the history, and the new population is the systematic resample of the old one (comb parents, jittered children) with uniform weights |
| Filter.Step | src/unscentedParticleFilter.cpp:86-211 | the step counter grows by one; past the last step nothing else changes; the last step keeps the reweighed population and yields the corrected pose of the first densest particle (particle 0 when no score is positive); earlier steps append the corrected pose of the last heaviest reweighed particle and resample the reweighed population |
| Filter.Solve | src/unscentedParticleFilter.cpp:945-952 | stepping until finished leaves the counter one past the total, a result when any step remained, and one history entry per intermediate step |
| Reader.ReadMeasurements | src/unscentedParticleFilter.cpp:955-1001 | the line loop appends to the held points exactly what the reference reader gives, counts only the new points, and succeeds iff the count is used up |
| Reader.RunLine | src/unscentedParticleFilter.cpp:970-996 | one line advances the three-phase reader as the whole reader run on that line and the rest |
| Reader.FindFirst | src/unscentedParticleFilter.cpp:970-983 | the first line satisfying a test, and no earlier line does |
| Reader.ReaderMatchesReference | src/unscentedParticleFilter.cpp:955-1001 | the line machine equals the reference: skip to the first OFF line, then to the first number, then read ceil(count / downsampling) points |
| Reader.HeaderPhase | src/unscentedParticleFilter.cpp:970-975 | the header phase skips every line until the first OFF line |
| Reader.CountPhase | src/unscentedParticleFilter.cpp:977-983 | the count phase skips every line until the first numeric one and takes its integer value |
| Reader.DataPhase | src/unscentedParticleFilter.cpp:985-996 | the data phase takes a line as a point iff its first item is a number and it has at least three items, and ignores any other line |
| Reader.PointsNeeded | src/unscentedParticleFilter.cpp:992-994 | the number of points read is the least k ≥ 1 that brings the count to zero or below, and none when the downsampling never does |
| Reader.DrainMatchesNeeded | src/unscentedParticleFilter.cpp:985-999 | the data phase succeeds with exactly the points needed, and fails with all points when too few arrive |
| Reader.UnitStepReadsCount | src/unscentedParticleFilter.cpp:992-994 | without downsampling, the reader takes as many points as the count, and at least one |
| Cloud.Subsample | src/localizer-module.cpp:296-305 | the loop's output keeps the points whose index is a multiple of the step, in order, and equals the stride definition `Cloud.Strided` |
| Cloud.SubsampleByOne | src/localizer-module.cpp:296-305 | a step of 1 keeps the whole cloud |
| Cloud.Dedup | src/localizer-module.cpp:311-321 | keeping each index at its first occurrence yields distinct indices with the same elements |
| Cloud.DrawIndices | src/localizer-module.cpp:315 | each draw maps to a point index below the cloud size |
| Cloud.Shuffle | src/localizer-module.cpp:307-322 | the output is the points at the first distinct drawn indices, in draw order, up to resize × size truncated toward zero, which is `Cloud.Shuffled`; the run completes iff that many were drawn, and a factor of zero or below gives an empty, complete shuffle |
| Cloud.ShufflePicked | src/localizer-module.cpp:311-321 | every kept index names a point of the cloud, and no more indices are kept than the target |
| Cloud.FreshIndices | src/localizer-module.cpp:311-321 | the loop keeps the distinct drawn indices in first-seen order until it has enough |
| Cloud.ShuffleOversizedNeverCompletes | src/localizer-module.cpp:313 | with a resize factor whose target exceeds the cloud size, no sequence of draws ever completes the shuffle |
| Cloud.GatherMeasurements | src/localizer-module.cpp:1114-1141 | the measurement list is the cloud truncated to whole chunks |
| Cloud.CutBatches | src/localizer-module.cpp:1114-1141 | one batch per whole chunk of the cloud; every batch holds a chunk of points, and laid end to end they are a prefix of the cloud |
| Cloud.BatchAt | src/localizer-module.cpp:1114-1141 | batch b holds exactly the cloud points from b × chunk up to (b + 1) × chunk |
| Cloud.ChunksFlatten | src/localizer-module.cpp:1114-1141 | concatenating the batches gives back the cloud truncated to whole chunks |
| Cloud.VisualChunks | src/localizer-module.cpp:1114-1141 | the measurements are exactly the batches concatenated, one batch per whole chunk |
| Cloud.AsUnsigned | src/localizer-module.cpp:1076-1087 | the signed step is reinterpreted as 32-bit unsigned: unchanged if non-negative, plus 2^32 if negative, zero only for zero |
| Cloud.Preprocess | src/localizer-module.cpp:1043-1101 | the filtered cloud is the inliers or the raw cloud, strided by the unsigned step when subsampling is on, then shuffled with the given draws when shuffling is on; its size is the stride count, at most the shuffle target when shuffling |
| Contacts.FingerOfTaxelRange | src/localizer-module.cpp:586-602 | fingertip taxels 0-59 map to index, middle, ring, little and thumb, twelve taxels each |
| Contacts.ResetFiveKeys | src/localizer-module.cpp:566-572 | resetting the five fingers leaves a map with exactly the five finger keys |
| Contacts.GetContacts | src/localizer-module.cpp:562-606 | the read succeeds iff a 192-taxel reading arrives; on failure all five fingers are cleared; otherwise a finger touches iff one of its taxels is active |
| Contacts.SimApply | src/localizer-module.cpp:496-518 | one simulated contact on a fingertip of the chosen hand marks that finger and records the contact centre; other fingers are untouched |
| Contacts.GetContactsSim | src/localizer-module.cpp:466-523 | the read succeeds iff a contact list arrives; on failure both maps are unchanged; otherwise a finger is marked iff some contact touches it, and its point is the centre of the last such contact |
| Contacts.SimPointsAreContacts | src/localizer-module.cpp:466-523 | reading into empty maps yields contact points for exactly the fingers marked as touching |
| Contacts.SpringyContacts | src/localizer-module.cpp:544-557 | finger i of the finger order touches iff its springy output exceeds its threshold |
| Contacts.SpringyThresholdMonotone | src/localizer-module.cpp:544-557 | raising the contact thresholds can only remove contacts: every finger that touches under higher thresholds touches under lower ones |
| Contacts.GetContactsSpringy | src/localizer-module.cpp:525-560 | only "right" and "left" are accepted; an unknown hand leaves the contacts unchanged; otherwise each finger is compared with that hand's threshold |
| Contacts.GetContactPoints | src/localizer-module.cpp:449-464 | fails iff a touching finger has no position; otherwise the points are keyed by exactly the touching fingers and carry their positions |
| Contacts.TactileStep | src/localizer-module.cpp:1197-1277 | without contact data nothing happens; with data, the first-step flag is cleared and the filter runs iff there are at least two contact points |
| Contacts.RealSkipIffFewContacts | src/localizer-module.cpp:1235-1270 | the real-skin tactile step is skipped iff at most one finger touches |
| Commands.Vocab | src/localizer-module.cpp:965-1015 | a vocab tag packs up to four characters, the first in the lowest byte |
| Commands.UnvocabVocab | src/localizer-module.cpp:965-1015 | unpacking a packed tag gives back its characters |
| Commands.VocabInjective | src/localizer-module.cpp:965-1015 | distinct tags pack to distinct integers, so the command comparisons are unambiguous |
| Commands.VocabConstants | src/localizer-module.cpp:965-1015 | the integer constants are the packings of ON, OFF, RES, PRON, PROF, VIS, TACR, TACL, RIGH and LEFT |
| Commands.StopFiltering | src/localizer-module.cpp:1355-1361 | stopping disables filtering and raises the first-step flag, and changes nothing else |
| Commands.ProcessCommand | src/localizer-module.cpp:965-1015 | the per-command effects: reset only on RES, filtering on ON and off on OFF/RES, first step on OFF/RES, probe on PRON and off on PROF, hand and type changes only through their tags |
| Commands.TactileTagsSelectHand | src/localizer-module.cpp:973-988 | ON with TACR or TACL selects tactile filtering with the right or left hand; ON with VIS selects visual filtering |
| Commands.Respond | src/localizer-module.cpp:1868-2081 | the eleven commands are answered here and every other request is delegated unchanged; the filter is reset only by reset and the storage only by storage-on |
| Commands.InvalidRequestChangesNothing | src/localizer-module.cpp:1938-2038 | a point-cloud setting with the wrong arity or value types is answered "Invalid request." and changes nothing |
| Commands.SubsampleAccepted | src/localizer-module.cpp:1938-1969 | pc-subsample with an integer stores that step and the on/off flag, and no other setting |
| Commands.IntegerFactorRejected | src/localizer-module.cpp:1970-2038 | pc-shuffle and pc-out-removal require a double where they take a factor or radius |
| Commands.TactileOnNeedsHand | src/localizer-module.cpp:1899-1927 | tactile-on enables tactile filtering with the hand named; a missing or invalid hand changes nothing and gets its own message |
| Commands.FilterOffKeepsFirstStep | src/localizer-module.cpp:1928-1937 | the RPC filter-off disables filtering but, unlike the port's OFF, does not raise the first-step flag |
| Commands.SettingsOnlyThroughPcRequests | src/localizer-module.cpp:1868-2081 | only the three point-cloud requests change the preprocessing settings |
| Demo.ArmController | src/object-tracking-manipulation/src/main.cpp:774-782 | an arm exists exactly for "right" and "left" |
| Demo.ArmControllerName | src/object-tracking-manipulation/src/main.cpp:774-782 | arm names and arm lookup are mutually inverse |
| Demo.Shift | src/object-tracking-manipulation/src/main.cpp:1139-1151 | up and down move along z, left and right along y, in and out along x; any other direction leaves the position alone |
| Demo.ShiftOpposite | src/object-tracking-manipulation/src/main.cpp:1139-1151 | shifting back in the opposite direction restores the position, and a shift moves by exactly the step |
| Demo.MoveHand | src/object-tracking-manipulation/src/main.cpp:1122-1164 | a target is computed iff the hand is valid, the pose is read, the shift time is at least 1 s and the trajectory time is set; the move succeeds iff the arm also takes it |
| Demo.StartTrajectory | src/object-tracking-manipulation/src/main.cpp:1265-1307 | a started trajectory had a valid hand, a readable pose, a set trajectory time and a follow time of at least 0.8 s |
| Demo.MoveArm | src/object-tracking-manipulation/src/main.cpp:1169-1260 | a successful rest or home move had a valid arm, a trajectory time of at least 1 s, the torso limits, the trajectory time set and the command sent |
| Demo.Update | src/object-tracking-manipulation/src/main.cpp:1614-2340 | a closing module does nothing; a period never changes the hand in use or the previous status; the timer is reset only on entering a wait status; a stop always ends in Idle |
| Demo.ActionTransitions | src/object-tracking-manipulation/src/main.cpp:1640-2048 | an action status whose robot call succeeds moves to its wait status and resets the timer, otherwise to Idle; tests and the latch go straight back to Idle |
| Demo.WaitTransitions | src/object-tracking-manipulation/src/main.cpp:2050-2269 | the hand-move, rest and home waits go to Idle when the check fails, times out or the motion is done, clearing the rest or home hand, and otherwise wait unchanged |
| Demo.HandWaitsUseTimeout | src/object-tracking-manipulation/src/main.cpp:1702-1788 | an open-hand wait ends in Idle on timeout; a close-hand wait moves on to the post-close phase on timeout |
| Demo.TimeoutsLeadToIdle | src/object-tracking-manipulation/src/main.cpp:1614-2340 | once every timeout has elapsed, each period brings a non-idle, non-closing demo strictly closer to Idle |
| Demo.ShiftGuards | src/object-tracking-manipulation/src/main.cpp:2000-2048 | in a hand-shift status a shift time below 1 s sends the demo to Idle; it waits for the hand iff a valid hand's pose was read, the time was at least 1 s and set, and the move was sent |
| Demo.FollowGuards | src/object-tracking-manipulation/src/main.cpp:1943-1972 | in StartMotion a follow time below 0.8 s sends the demo to Idle; the trajectory is followed iff the hand is valid, its pose is read, the time is at least 0.8 s and set |
| Demo.ArmMoveGuards | src/object-tracking-manipulation/src/main.cpp:2093-2210 | in MoveRest or MoveHome a trajectory time below 1 s sends the demo to Idle and forgets the arm; it waits for the arm iff every call of the move succeeded |
| Demo.UpdateKeepsContextPending | src/object-tracking-manipulation/src/main.cpp:2176-2337 | an arm context saved for the home move stays recoverable until restored, and a handled stop restores it |
| DemoRpc.StopAsWritten | src/object-tracking-manipulation/src/main.cpp:742-757 | stop as written: always issued, and it records the status it interrupts even when that is a stop |
| DemoRpc.StopRequest | src/object-tracking-manipulation/src/main.cpp:742-757 | stop: always issued; a repeated stop keeps the status the first one interrupted; nothing else changes |
| DemoRpc.Handle | src/object-tracking-manipulation/src/main.cpp:258-765 | every request but stop and quit is refused while busy; a hand request is issued iff the demo is idle and a hand is set; only quit closes the module; no request restores the context; stop is dispatched to the corrected `DemoRpc.StopRequest` |
| DemoRpc.HandleIdle | src/object-tracking-manipulation/src/main.cpp:258-740 | an idle handler that leaves Idle issues the command and records Idle as the previous status |
| DemoRpc.HandRequest | src/object-tracking-manipulation/src/main.cpp:336-710 | a hand request without a hand in use is refused unchanged; otherwise it sets its own status |
| DemoRpc.LateralityChecked | src/object-tracking-manipulation/src/main.cpp:258-296 | set_hand, move_rest and move_home accept only right or left and record that hand; unset_hand clears the hand |
| DemoRpc.HandPoseUsesHandInUse | src/object-tracking-manipulation/src/main.cpp:712-740 | get_hand_pose checks its argument but reads the hand in use, so with no hand set it fails for a valid laterality |
| DemoRpc.AcceptedRequestsNameTheirArm | src/object-tracking-manipulation/src/main.cpp:336-710 | whatever an idle request leaves, a shift, rest or home status comes with a valid arm name |
| DemoRpc.StopTwiceLosesContext | src/object-tracking-manipulation/src/main.cpp:742-757 | two stops during the home wait, then a period, reach Idle without restoring the saved arm context |
| DemoRpc.HandleKeepsContextPending | src/object-tracking-manipulation/src/main.cpp:742-757 | with the corrected stop, every request keeps a saved home-move context recoverable |

## Left out

- Numerical linear algebra is not modelled: the unscented prediction and correction (sigma-point propagation, SVD, inverse, the transform of each measurement into the particle frame). The corrected poses and likelihoods of a step are inputs.
- The likelihood's distance computation (point-to-mesh distance, CGAL) is not modelled. The per-measurement squared errors are inputs, and `exp` is left out: `Schedule.WindowExponentBounds` is about the exponent.
- Resampling.SelectParents: doubles are modelled as exact reals, so the weights sum to exactly one and every parent is proved to be below N. In floating point the last cumulative weight can round below the last comb point, and the unbounded walk would then read past the end.
- Filter.Step: every likelihood is required to be positive, as an exponential is over the reals. In floating point `exp` can underflow to 0, which makes the total zero and the normalised weights NaN; the model does not cover that run.
- Resampling.DensestParticle: the density scores of the final step (the pose-difference kernel sums) are inputs; only the arg-max over them is modelled.
- Filter.Select: the post-resampling covariance is an input, because the prediction covariance it copies is computed by the unmodelled unscented step.
- Resampling.Resample: the first comb draw may be exactly 1/N (a closed interval), slightly more than the source's draw allows.
- Filter.Init and Filter.Solve: timing (`Time::now`) and the CGAL mesh setup are left out.
- Reader.ReadMeasurements: the bottle tokenisation of a text line is not modelled; a line arrives already split into values. Lines are assumed to fit the 255-character buffer.
- Cloud.Preprocess: requires a non-zero subsample step while subsampling, because subsamplePointCloud takes the index modulo the step.
- Cloud.Preprocess: a negative shuffle factor is passed through to `Cloud.Shuffle`, which empties the filtered cloud; the undefined conversion for products of -1 or below is modelled as an empty cloud as well.
- Cloud.Preprocess: the outlier removal (radius search in a k-d tree) is an input, the inlier cloud.
- Cloud.GatherMeasurements, Cloud.CutBatches, Cloud.VisualChunks: a visual chunk size of 0 is excluded by their requires. The size comes from the configuration (pointCloudVisualChunkSize, where a non-integer value reads as 0), and with 0 both loops of the visual step add 0 to their index and never end, even on an empty cloud.
- Cloud.Shuffle: a factor whose product with the cloud size is -1 or below has no defined conversion to an unsigned size in the source; it is taken as a target of 0, like a product in (-1, 0], which truncates to 0.
- Cloud.Shuffle: its random draws are a finite input sequence in [0, 1). It reports whether the target size was reached instead of drawing forever; with a target above the cloud size the source loop never ends (see `Cloud.ShuffleOversizedNeverCompletes`).
- Contacts: the skin events arrive through YARP ports. A missing port reading is the `None` case. The encoder-based springy-finger outputs are inputs.
- Contacts.GetContactsSim: a simulated contact is reduced to its first taxel id, its skin part and its geometric centre; an empty taxel list is not modelled.
- Commands: the mutex guarding the module state, the storage of data to disk (only its success flag is an input) and the visual/tactile filtering threads are left out. `help` returns its fixed lines.
- Commands.Respond: the reply text of `storage-save` comes from the file writer and is reduced to the success flag.
- Demo: the robot interfaces (Cartesian controllers, the hand action library, gaze control, pouring trajectories) are inputs. Each period sees them as a `Tick`: whether the action call succeeded, whether the motion check succeeded, whether the motion is done, and the time elapsed since the timer was reset.
- Demo.MoveHand: a tuple of positions stands for the pose vector, and the orientation is passed through unchanged.
- DemoRpc.Handle: stop goes to the corrected `DemoRpc.StopRequest`, so a stop that arrives while another is pending keeps the earlier interrupted status, where the source records Stop (see Findings; the as-written stop is `DemoRpc.StopAsWritten`).
- DemoRpc.HandleIdle: the text of the get_hand_pose reply formats the pose through the vector's own printing, which stands here as two strings. The error returns of get_hand_pose leave its mutex locked; locking is not modelled.
- Concurrency: the RPC thread and the periodic thread of the demo share state under a mutex. The model treats each RPC request and each period as one atomic step.
- Configuration (resource-finder parameters) is not modelled, apart from the defaults cited in the table. Neither are logging, the viewer, performance indices or the other programs of the repository.

## Findings

| source | as written | input that shows it | evidently intended | confidence | as-written member | corrected member |
|---|---|---|---|---|---|---|
| src/object-tracking-manipulation/src/main.cpp:742-757 with 2302-2337 | `stop` overwrites the previous status with the current one, even when the current status is an unhandled stop | status WaitArmHome after a home move, torso enabled, context not yet restored, home hand "right"; two stop requests arrive before the next period | the pending stop keeps the status it interrupted, so the next period restores the arm context saved for the home move | medium, not executed | DemoRpc.StopAsWritten, DemoRpc.StopTwiceLosesContext | DemoRpc.StopRequest, DemoRpc.HandleKeepsContextPending |

=== FILE: common.dfy ===
/**
 Shared building blocks of the localization model: an optional value, a
 three-dimensional point, finite sums over real sequences and the ASCII
 upper-casing that the measurement reader applies to its header token.
 */
module Common {

  /** A value that may be absent, used where the modelled C++ code
      gets a null reference, an empty port read or a failure flag. */
  datatype Option<+T> = None | Some(value: T)

  /** A point or a position in space (x, y, z). */
  datatype Vec3 = Vec3(x: real, y: real, z: real)

  /** Sum of a sequence of reals, accumulated left to right. */
  function Sum(s: seq<real>): real
  {
    if |s| == 0 then 0.0 else Sum(s[..|s| - 1]) + s[|s| - 1]
  }

  /** Sum of the squares of a sequence of reals. */
  function SumSquares(s: seq<real>): real
  {
    if |s| == 0 then 0.0 else SumSquares(s[..|s| - 1]) + s[|s| - 1] * s[|s| - 1]
  }

  lemma SumAppend(s: seq<real>, x: real)
    ensures Sum(s + [x]) == Sum(s) + x
  {
    assert (s + [x])[..|s|] == s;
  }

  lemma {:induction false} SumPrepend(x: real, s: seq<real>)
    ensures Sum([x] + s) == x + Sum(s)
  {
    if |s| == 0 {
      assert [x] + s == [x];
    } else {
      SumPrepend(x, s[..|s| - 1]);
      assert ([x] + s)[..|s|] == [x] + s[..|s| - 1];
    }
  }

  /** A sequence of n copies of the same value sums to n times it. */
  lemma {:induction false} SumConstant(s: seq<real>, c: real)
    requires forall i :: 0 <= i < |s| ==> s[i] == c
    ensures Sum(s) == |s| as real * c
  {
    if |s| > 0 {
      SumConstant(s[..|s| - 1], c);
    }
  }

  /** Scaling every element scales the sum. */
  lemma {:induction false} SumScale(s: seq<real>, t: seq<real>, k: real)
    requires |s| == |t|
    requires forall i :: 0 <= i < |s| ==> t[i] == s[i] * k
    ensures Sum(t) == Sum(s) * k
  {
    if |s| > 0 {
      SumScale(s[..|s| - 1], t[..|t| - 1], k);
    }
  }

  /** A sum of non-negative reals is non-negative. */
  lemma {:induction false} SumNonNegative(s: seq<real>)
    requires forall i :: 0 <= i < |s| ==> s[i] >= 0.0
    ensures Sum(s) >= 0.0
  {
    if |s| > 0 {
      SumNonNegative(s[..|s| - 1]);
    }
  }

  /** Sum of the first k elements. */
  function PrefixSum(s: seq<real>, k: nat): real
    requires k <= |s|
  {
    Sum(s[..k])
  }

  /** Upper-cases one ASCII letter and leaves every other character alone,
      as C's toupper does in the "C" locale. */
  function UpperChar(c: char): char
  {
    if 'a' <= c <= 'z' then (c as int - 32) as char else c
  }

  function ToUpper(s: string): (r: string)
    ensures |r| == |s|
    ensures forall i :: 0 <= i < |s| ==> r[i] == UpperChar(s[i])
  {
    if |s| == 0 then "" else [UpperChar(s[0])] + ToUpper(s[1..])
  }

  /** One item of a YARP Bottle: an integer, a floating-point number, a
      string, any other kind of item (a vocab, a nested list, a blob), or the
      null value returned for a position past the end. */
  datatype Value = VNull | VInt(i: int) | VDouble(d: real) | VString(s: string) | VOther

  /** Bottle::get: the item at position i, null past the end. */
  function Get(b: seq<Value>, i: nat): (v: Value)
  {
    if i < |b| then b[i] else VNull
  }

  /** Value::asString: the text of a string item, empty for any other item. */
  function AsString(v: Value): string
  {
    if v.VString? then v.s else ""
  }

  /** Value::asInt: integers as they are, floating-point numbers truncated
      toward zero, 0 for anything else. */
  function AsInt(v: Value): (n: int)
    ensures v.VDouble? ==> Abs(n as real) <= Abs(v.d) < Abs(n as real) + 1.0
    ensures v.VDouble? ==> (n >= 0 <==> v.d > -1.0)
  {
    match v
    case VInt(i) => i
    case VDouble(d) => if d >= 0.0 then d.Floor else -((-d).Floor)
    case _ => 0
  }

  /** Value::asDouble: numbers as reals, 0 for anything else. */
  function AsDouble(v: Value): real
  {
    match v
    case VInt(i) => i as real
    case VDouble(d) => d
    case _ => 0.0
  }

  function Abs(r: real): (a: real)
    ensures a >= 0.0 && (a == r || a == -r)
  {
    if r < 0.0 then -r else r
  }

  lemma MulMono(a: int, b: int, c: nat)
    requires a <= b
    ensures a * c <= b * c
  {
    assert (b - a) * c >= 0;
  }

  /** The only multiple of a positive number strictly within one step of
      zero is zero. */
  lemma ZeroMultiple(k: int, step: int)
    requires step > 0 && -step < k * step < step
    ensures k == 0
  {
    if k > 0 {
      MulMono(1, k, step);
    } else if k < 0 {
      MulMono(k, -1, step);
    }
  }

  /** n lies in the m-th block of length step exactly when m = ceil(n / step). */
  lemma CeilChar(n: nat, step: nat, m: nat)
    requires step > 0
    requires (m - 1) * step < n <= m * step
    ensures m == (n + step - 1) / step
  {
    var q := (n + step - 1) / step;
    var r := (n + step - 1) % step;
    assert n + step - 1 == q * step + r;
    assert (m - 1) * step == m * step - step;
    assert (q - m) * step == q * step - m * step;
    ZeroMultiple(q - m, step);
  }

  /** Within the m-th block of length step, only its last index m * step
      is a multiple of step. */
  lemma ModZeroAt(i: nat, step: nat, m: nat)
    requires step > 0
    requires (m - 1) * step < i <= m * step
    ensures i % step == 0 <==> i == m * step
  {
    var q := i / step;
    var r := i % step;
    assert i == q * step + r;
    assert (m - 1) * step == m * step - step;
    assert (m - q) * step == m * step - q * step;
    if r == 0 || i == m * step {
      ZeroMultiple(m - q, step);
    }
  }
}

=== FILE: localizer_cloud.dfy ===
/**
 Point-cloud pre-processing of the localizer module before visual
 filtering: subsampling by a fixed stride (subsamplePointCloud), random
 selection of distinct points (shufflePointCloud), and the cutting of the
 cloud into fixed-size chunks fed to the filter one after the other
 (performFiltering). Points are opaque here.
 */
module Cloud {
  import opened Common

  /** Number of indices in 0..n-1 that are multiples of skip: ceil(n / skip). */
  function StrideCount(n: nat, skip: nat): nat
    requires skip > 0
  {
    (n + skip - 1) / skip
  }

  /**
   subsamplePointCloud: keeps, in order, the points whose index is a
   multiple of skip, so point k of the result is point k * skip of the
   input. The stride must be positive (subsamplePointCloud takes i % skip).
   */
  method Subsample<T>(pc: seq<T>, skip: nat) returns (out: seq<T>)
    requires skip > 0
    ensures |out| == StrideCount(|pc|, skip)
    ensures forall k :: 0 <= k < |out| ==> k * skip < |pc| && out[k] == pc[k * skip]
    ensures out == Strided(pc, skip)
  {
    out := [];
    var i := 0;
    while i < |pc|
      invariant 0 <= i <= |pc|
      invariant (|out| - 1) * skip < i <= |out| * skip
      invariant forall k :: 0 <= k < |out| ==> k * skip < i && out[k] == pc[k * skip]
    {
      ModZeroAt(i, skip, |out|);
      assert (|out| + 1) * skip == |out| * skip + skip;
      if i % skip == 0 {
        out := out + [pc[i]];
      }
      i := i + 1;
    }
    CeilChar(|pc|, skip, |out|);
  }

  /** The points at every index that is a multiple of skip, in order. */
  function Strided<T>(pc: seq<T>, skip: nat): (out: seq<T>)
    requires skip > 0
    ensures |out| == StrideCount(|pc|, skip)
  {
    var m := StrideCount(|pc|, skip);
    seq(m, k requires 0 <= k < m => StridePoint(pc, skip, k))
  }

  /** Point k of the stride, which exists while k < ceil(n / skip). */
  function StridePoint<T>(pc: seq<T>, skip: nat, k: nat): T
    requires skip > 0 && k < StrideCount(|pc|, skip)
  {
    StrideInside(|pc|, skip, k);
    pc[k * skip]
  }

  lemma StrideInside(n: nat, skip: nat, k: nat)
    requires skip > 0 && k < StrideCount(n, skip)
    ensures k * skip < n
  {
    var m := StrideCount(n, skip);
    var r := (n + skip - 1) % skip;
    assert n + skip - 1 == m * skip + r;
    MulMono(k + 1, m, skip);
    assert (k + 1) * skip == k * skip + skip;
  }

  /** A stride of one keeps the whole cloud. */
  lemma SubsampleByOne<T>(pc: seq<T>, out: seq<T>)
    requires |out| == StrideCount(|pc|, 1)
    requires forall k :: 0 <= k < |out| ==> k * 1 < |pc| && out[k] == pc[k * 1]
    ensures out == pc
  {
  }

  /** The distinct values of s in order of first occurrence. */
  function Dedup(s: seq<nat>): (d: seq<nat>)
    ensures forall i, j :: 0 <= i < j < |d| ==> d[i] != d[j]
    ensures forall x :: x in d <==> x in s
    ensures |d| <= |s|
  {
    if |s| == 0 then []
    else
      var init := Dedup(s[..|s| - 1]);
      assert forall x :: x in s <==> x in s[..|s| - 1] || x == s[|s| - 1];
      if s[|s| - 1] in init then init else init + [s[|s| - 1]]
  }

  lemma DedupSnoc(s: seq<nat>, x: nat)
    ensures Dedup(s + [x]) == if x in Dedup(s) then Dedup(s) else Dedup(s) + [x]
  {
    assert (s + [x])[..|s|] == s;
  }

  /** Deduplicating a prefix yields a prefix of the deduplicated whole. */
  lemma {:induction false} DedupPrefix(s: seq<nat>, k: nat)
    requires k <= |s|
    ensures |Dedup(s[..k])| <= |Dedup(s)|
    ensures Dedup(s[..k]) == Dedup(s)[..|Dedup(s[..k])|]
    decreases |s| - k
  {
    if k < |s| {
      DedupPrefix(s, k + 1);
      DedupStep(s, k);
      var a := Dedup(s[..k]);
      var b := Dedup(s[..k + 1]);
      var c := Dedup(s);
      assert c[..|b|][..|a|] == c[..|a|];
    } else {
      assert s[..k] == s;
    }
  }

  /** One more element extends the deduplicated prefix or leaves it. */
  lemma DedupStep(s: seq<nat>, k: nat)
    requires k < |s|
    ensures |Dedup(s[..k])| <= |Dedup(s[..k + 1])|
    ensures Dedup(s[..k]) == Dedup(s[..k + 1])[..|Dedup(s[..k])|]
  {
    assert s[..k + 1] == s[..k] + [s[k]];
    DedupSnoc(s[..k], s[k]);
  }

  /** The point index picked by a unit draw d in [0, 1): floor(d * n). */
  function DrawIndex(d: real, n: nat): (i: nat)
    requires 0.0 <= d < 1.0
    ensures n > 0 ==> i < n
  {
    var x := d * n as real;
    assert x < n as real || n == 0;
    x.Floor
  }

  /** The draw indices of a sequence of unit draws. */
  function DrawIndices(draws: seq<real>, n: nat): (idx: seq<nat>)
    requires forall k :: 0 <= k < |draws| ==> 0.0 <= draws[k] < 1.0
    ensures |idx| == |draws|
    ensures forall k :: 0 <= k < |draws| ==> idx[k] == DrawIndex(draws[k], n)
  {
    if |draws| == 0 then [] else DrawIndices(draws[..|draws| - 1], n) + [DrawIndex(draws[|draws| - 1], n)]
  }

  /** Target size of shufflePointCloud: resize * n converted to an unsigned
      integer, which truncates toward zero. A product in (-1, 0] gives 0;
      below that the conversion has no defined value and is taken as 0 too. */
  function ShuffleTarget(resize: real, n: nat): (k: nat)
    ensures resize <= 0.0 ==> k == 0
    ensures resize >= 0.0 ==> k as real <= resize * n as real < k as real + 1.0
  {
    var x := resize * n as real;
    NonPositiveProduct(resize, n, x);
    if x <= 0.0 then 0 else x.Floor
  }

  /** A non-positive factor times a count is not positive. */
  lemma NonPositiveProduct(resize: real, n: nat, x: real)
    requires x == resize * n as real
    ensures resize <= 0.0 ==> x <= 0.0
    ensures resize >= 0.0 ==> x >= 0.0
  {
  }

  /**
   shufflePointCloud: draws indices uniformly until the target number of
   distinct indices is reached, copying each newly drawn point. With a
   finite supply of draws the loop may run dry (it cannot finish at all
   when the target exceeds the cloud), which is reported by complete. The
   picked indices are the distinct draws in order of first appearance, cut
   at the target.
   */
  method Shuffle<T>(pc: seq<T>, resize: real, draws: seq<real>)
    returns (out: seq<T>, picked: seq<nat>, complete: bool)
    requires forall k :: 0 <= k < |draws| ==> 0.0 <= draws[k] < 1.0
    ensures var all := Dedup(DrawIndices(draws, |pc|));
            picked == all[..if |all| < ShuffleTarget(resize, |pc|) then |all| else ShuffleTarget(resize, |pc|)]
    ensures complete <==> |picked| == ShuffleTarget(resize, |pc|)
    ensures |out| == |picked|
    ensures forall k :: 0 <= k < |out| ==> picked[k] < |pc| && out[k] == pc[picked[k]]
    ensures picked == ShufflePicked(|pc|, resize, draws) && out == Shuffled(pc, resize, draws)
    ensures resize <= 0.0 ==> out == [] && complete
  {
    var n := |pc|;
    var target := ShuffleTarget(resize, n);
    var idx := DrawIndices(draws, n);
    picked := FreshIndices(idx, n, target);
    out := seq(|picked|, m requires 0 <= m < |picked| => pc[picked[m]]);
    complete := |picked| == target;
  }

  /** The indices shufflePointCloud keeps: the distinct draws in order of
      first appearance, cut at the target. */
  function ShufflePicked(n: nat, resize: real, draws: seq<real>): (picked: seq<nat>)
    requires forall k :: 0 <= k < |draws| ==> 0.0 <= draws[k] < 1.0
    ensures forall m :: 0 <= m < |picked| ==> picked[m] < n
    ensures |picked| <= ShuffleTarget(resize, n)
  {
    var all := Dedup(DrawIndices(draws, n));
    var target := ShuffleTarget(resize, n);
    var len := if |all| < target then |all| else target;
    PickedBelow(n, resize, draws);
    assert forall m :: 0 <= m < len ==> all[m] < n;
    all[..len]
  }

  /** Every kept index names a point: the draws fall below n, and with no
      points the target is zero. */
  lemma PickedBelow(n: nat, resize: real, draws: seq<real>)
    requires forall k :: 0 <= k < |draws| ==> 0.0 <= draws[k] < 1.0
    ensures forall m :: 0 <= m < |Dedup(DrawIndices(draws, n))| && m < ShuffleTarget(resize, n) ==>
              Dedup(DrawIndices(draws, n))[m] < n
  {
    if n == 0 {
      EmptyTarget(resize);
    } else {
      DedupBelow(DrawIndices(draws, n), n);
    }
  }

  lemma DedupBelow(s: seq<nat>, n: nat)
    requires forall k :: 0 <= k < |s| ==> s[k] < n
    ensures forall m :: 0 <= m < |Dedup(s)| ==> Dedup(s)[m] < n
  {
    forall m | 0 <= m < |Dedup(s)|
      ensures Dedup(s)[m] < n
    {
      assert Dedup(s)[m] in s;
    }
  }

  /** The points at the kept indices, in the order they were kept. */
  function Shuffled<T>(pc: seq<T>, resize: real, draws: seq<real>): (out: seq<T>)
    requires forall k :: 0 <= k < |draws| ==> 0.0 <= draws[k] < 1.0
    ensures |out| <= ShuffleTarget(resize, |pc|)
  {
    var picked := ShufflePicked(|pc|, resize, draws);
    seq(|picked|, m requires 0 <= m < |picked| => pc[picked[m]])
  }

  /** The index loop of shufflePointCloud: walk the drawn indices, keeping
      each one not kept before, until target indices are kept. */
  method FreshIndices(idx: seq<nat>, n: nat, target: nat) returns (picked: seq<nat>)
    requires target == 0 || forall k :: 0 <= k < |idx| ==> idx[k] < n
    ensures var all := Dedup(idx);
            picked == all[..if |all| < target then |all| else target]
    ensures forall m :: 0 <= m < |picked| ==> picked[m] < n
  {
    picked := [];
    var k := 0;
    while |picked| < target && k < |idx|
      invariant 0 <= k <= |idx|
      invariant picked == Dedup(idx[..k])
      invariant |picked| <= target
    {
      DedupStepAt(idx, k);
      var i := idx[k];
      if i !in picked {
        picked := picked + [i];
      }
      k := k + 1;
    }
    CutAtTarget(idx, k, target);
    if target > 0 {
      DedupBelow(idx[..k], n);
    }
  }

  /** Dedup of one more drawn index: the new index is appended unless it
      was kept already. */
  lemma DedupStepAt(idx: seq<nat>, k: nat)
    requires k < |idx|
    ensures Dedup(idx[..k + 1]) ==
              if idx[k] in Dedup(idx[..k]) then Dedup(idx[..k]) else Dedup(idx[..k]) + [idx[k]]
  {
    assert idx[..k + 1] == idx[..k] + [idx[k]];
    DedupSnoc(idx[..k], idx[k]);
  }

  /** When the index loop stops, having kept the target or run out of
      draws, what it kept is Dedup of all the draws cut at the target. */
  lemma CutAtTarget(idx: seq<nat>, k: nat, target: nat)
    requires k <= |idx|
    requires |Dedup(idx[..k])| <= target
    requires |Dedup(idx[..k])| == target || k == |idx|
    ensures var all := Dedup(idx);
            Dedup(idx[..k]) == all[..if |all| < target then |all| else target]
  {
    DedupPrefix(idx, k);
    if k == |idx| {
      assert idx[..k] == idx;
    }
  }

  /** A target above the cloud size can never be met: there are only n
      distinct indices to draw, so shufflePointCloud's loop would never end. */
  lemma ShuffleOversizedNeverCompletes(n: nat, resize: real, draws: seq<real>)
    requires forall k :: 0 <= k < |draws| ==> 0.0 <= draws[k] < 1.0
    requires ShuffleTarget(resize, n) > n
    ensures |Dedup(DrawIndices(draws, n))| < ShuffleTarget(resize, n)
  {
    var idx := DrawIndices(draws, n);
    var d := Dedup(idx);
    EmptyTarget(resize);
    assert n > 0;
    forall x | x in Elems(d)
      ensures x < n
    {
      var k :| 0 <= k < |idx| && idx[k] == x;
    }
    SetOfDistinct(d);
    SubsetOfRangeCard(Elems(d), n);
  }

  lemma EmptyTarget(resize: real)
    ensures ShuffleTarget(resize, 0) == 0
  {
    assert resize * 0.0 == 0.0;
  }

  function Elems(d: seq<nat>): set<nat>
  {
    set x | x in d
  }

  /** A sequence without repetitions has as many elements as its set. */
  lemma {:induction false} SetOfDistinct(d: seq<nat>)
    requires forall i, j :: 0 <= i < j < |d| ==> d[i] != d[j]
    ensures |Elems(d)| == |d|
  {
    if |d| > 0 {
      var init := d[..|d| - 1];
      var last := d[|d| - 1];
      SetOfDistinct(init);
      assert d == init + [last];
      assert last !in Elems(init) by {
        forall j | 0 <= j < |init| ensures init[j] != last {
          assert d[j] != d[|d| - 1];
        }
      }
      assert Elems(d) == Elems(init) + {last};
    } else {
      assert Elems(d) == {};
    }
  }

  /** A set of naturals below n has at most n elements. */
  lemma {:induction false} SubsetOfRangeCard(s: set<nat>, n: nat)
    requires forall x :: x in s ==> x < n
    ensures |s| <= n
    decreases n
  {
    if n > 0 {
      SubsetOfRangeCard(s - {n - 1}, n - 1);
    } else {
      assert s == {};
    }
  }

  /** b is the number of whole blocks of length step in n. */
  lemma FloorChar(n: nat, step: nat, b: nat)
    requires step > 0
    requires b * step <= n < (b + 1) * step
    ensures b == n / step
  {
    var q := n / step;
    assert n == q * step + n % step;
    assert (b + 1) * step == b * step + step;
    assert (q - b) * step == q * step - b * step;
    ZeroMultiple(q - b, step);
  }

  /** Concatenation of a sequence of batches. */
  function Flatten<T>(batches: seq<seq<T>>): seq<T>
  {
    if |batches| == 0 then [] else Flatten(batches[..|batches| - 1]) + batches[|batches| - 1]
  }

  /** First loop of visual filtering: all_meas, the points of every whole
      chunk in order. The chunk size must be positive, otherwise the loop
      does not advance. */
  method GatherMeasurements<T>(pc: seq<T>, chunk: nat) returns (allMeas: seq<T>)
    requires chunk > 0
    ensures allMeas == pc[..(|pc| / chunk) * chunk]
  {
    allMeas := [];
    var i := 0;
    ghost var chunks := 0;
    while i + chunk <= |pc|
      invariant i <= |pc| && i == chunks * chunk
      invariant allMeas == pc[..i]
      decreases |pc| - i
    {
      var k := 0;
      while k < chunk
        invariant 0 <= k <= chunk
        invariant allMeas == pc[..i + k]
      {
        allMeas := allMeas + [pc[i + k]];
        k := k + 1;
      }
      assert (chunks + 1) * chunk == i + chunk;
      i := i + chunk;
      chunks := chunks + 1;
    }
    assert (chunks + 1) * chunk == i + chunk;
    FloorChar(|pc|, chunk, chunks);
  }

  /** Every batch is a whole chunk and, laid end to end, the batches are a
      prefix of the cloud: batch b is the b-th chunk. */
  ghost predicate IsBatches<T>(pc: seq<T>, chunk: nat, batches: seq<seq<T>>)
  {
    (forall b :: 0 <= b < |batches| ==> |batches[b]| == chunk) &&
    |Flatten(batches)| <= |pc| && Flatten(batches) == pc[..|Flatten(batches)|]
  }

  /** Batches of chunk points each hold chunk points per batch together. */
  lemma {:induction false} FlattenLength<T>(chunk: nat, batches: seq<seq<T>>)
    requires forall b :: 0 <= b < |batches| ==> |batches[b]| == chunk
    ensures |Flatten(batches)| == |batches| * chunk
  {
    if |batches| > 0 {
      var m := |batches| - 1;
      FlattenLength(chunk, batches[..m]);
      MulSucc(m, chunk);
    }
  }

  lemma MulSucc(m: nat, chunk: nat)
    ensures (m + 1) * chunk == m * chunk + chunk
  {
  }

  lemma IsBatchesSnoc<T>(pc: seq<T>, chunk: nat, batches: seq<seq<T>>, measure: seq<T>)
    requires IsBatches(pc, chunk, batches)
    requires |Flatten(batches)| + chunk <= |pc|
    requires measure == pc[|Flatten(batches)|..|Flatten(batches)| + chunk]
    ensures IsBatches(pc, chunk, batches + [measure])
  {
    var bs := batches + [measure];
    var l := |Flatten(batches)|;
    assert bs[..|batches|] == batches;
    assert Flatten(bs) == Flatten(batches) + measure;
    assert pc[..l + chunk] == pc[..l] + pc[l..l + chunk];
  }

  /** Second loop of visual filtering: the measure handed to the filter at
      each step, one whole chunk after the other; a trailing incomplete
      chunk is dropped. */
  method CutBatches<T>(pc: seq<T>, chunk: nat) returns (batches: seq<seq<T>>)
    requires chunk > 0
    ensures |batches| == |pc| / chunk
    ensures IsBatches(pc, chunk, batches)
  {
    batches := [];
    var j := 0;
    while j + chunk <= |pc|
      invariant j == |Flatten(batches)|
      invariant IsBatches(pc, chunk, batches)
      decreases |pc| - j
    {
      var measure := [];
      var k := 0;
      while k < chunk
        invariant 0 <= k <= chunk
        invariant measure == pc[j..j + k]
      {
        measure := measure + [pc[j + k]];
        k := k + 1;
      }
      IsBatchesSnoc(pc, chunk, batches, measure);
      batches := batches + [measure];
      j := j + chunk;
    }
    FlattenLength(chunk, batches);
    MulSucc(|batches|, chunk);
    FloorChar(|pc|, chunk, |batches|);
  }

  /** Both loops of visual filtering together: the batches laid end to end
      are exactly all_meas. */
  method VisualChunks<T>(pc: seq<T>, chunk: nat) returns (allMeas: seq<T>, batches: seq<seq<T>>)
    requires chunk > 0
    ensures |batches| == |pc| / chunk
    ensures allMeas == Flatten(batches)
    ensures |allMeas| == (|pc| / chunk) * chunk
  {
    allMeas := GatherMeasurements(pc, chunk);
    batches := CutBatches(pc, chunk);
    ChunksFlatten(pc, chunk, batches);
  }

  /** The batches laid end to end are exactly the measurements gathered by
      the first loop: the cloud up to its last whole chunk. */
  lemma ChunksFlatten<T>(pc: seq<T>, chunk: nat, batches: seq<seq<T>>)
    requires IsBatches(pc, chunk, batches)
    ensures |batches| * chunk <= |pc| && Flatten(batches) == pc[..|batches| * chunk]
  {
    FlattenLength(chunk, batches);
  }

  /** Batch b of the cut holds the points b * chunk up to (b + 1) * chunk. */
  lemma {:induction false} BatchAt<T>(pc: seq<T>, chunk: nat, batches: seq<seq<T>>, b: nat)
    requires IsBatches(pc, chunk, batches)
    requires b < |batches|
    ensures (b + 1) * chunk <= |pc|
    ensures batches[b] == pc[b * chunk..(b + 1) * chunk]
  {
    var m := |batches| - 1;
    var init := batches[..m];
    var fi := Flatten(init);
    var fb := Flatten(batches);
    assert fb == fi + batches[m];
    assert forall k :: 0 <= k < m ==> init[k] == batches[k];
    FlattenLength(chunk, init);
    FlattenLength(chunk, batches);
    MulSucc(m, chunk);
    assert fi == fb[..|fi|];
    assert fi == pc[..|fi|];
    if b < m {
      BatchAt(pc, chunk, init, b);
    } else {
      assert batches[b] == fb[|fi|..];
      assert fb[|fi|..] == pc[m * chunk..(m + 1) * chunk];
    }
  }

  /** Point-cloud options of the localizer module. */
  datatype CloudSettings = CloudSettings(
    useOutlierRemoval: bool,
    useSubsampling: bool,
    subsamplePoints: int,
    useShuffle: bool,
    shuffleResize: real,
    outlierRadius: real,
    outlierNeighbours: int)

  /** The int setting handed over as an unsigned stride: a negative value
      wraps modulo 2^32. */
  function AsUnsigned(v: int): (u: nat)
    requires -0x8000_0000 <= v < 0x8000_0000
    ensures u < 0x1_0000_0000
    ensures u == 0 <==> v == 0
    ensures 0 <= v ==> u == v
    ensures v < 0 ==> u == v + 0x1_0000_0000
  {
    if v < 0 then v + 0x1_0000_0000 else v
  }

  /**
   Pre-processing of a real cloud before visual filtering: outlier removal
   (its result is supplied, since it runs in a foreign library), then
   subsampling, then shuffling, each only when enabled.
   */
  method Preprocess<T>(cloud: seq<T>, inliers: seq<T>, settings: CloudSettings, draws: seq<real>)
    returns (filtered: seq<T>)
    requires -0x8000_0000 <= settings.subsamplePoints < 0x8000_0000
    requires settings.useSubsampling ==> settings.subsamplePoints != 0
    requires forall k :: 0 <= k < |draws| ==> 0.0 <= draws[k] < 1.0
    ensures var base := if settings.useOutlierRemoval then inliers else cloud;
            var skip := AsUnsigned(settings.subsamplePoints);
            var sub := if settings.useSubsampling then StrideCount(|base|, skip) else |base|;
            (!settings.useShuffle ==> |filtered| == sub) &&
            (settings.useShuffle ==> |filtered| <= ShuffleTarget(settings.shuffleResize, sub))
    ensures var base := if settings.useOutlierRemoval then inliers else cloud;
            var sub := if settings.useSubsampling then Strided(base, AsUnsigned(settings.subsamplePoints)) else base;
            filtered == if settings.useShuffle then Shuffled(sub, settings.shuffleResize, draws) else sub
  {
    var base := if settings.useOutlierRemoval then inliers else cloud;
    var sub := base;
    if settings.useSubsampling {
      sub := Subsample(base, AsUnsigned(settings.subsamplePoints));
    }
    filtered := sub;
    if settings.useShuffle {
      var picked, complete;
      filtered, picked, complete := Shuffle(sub, settings.shuffleResize, draws);
    }
  }
}

=== FILE: localizer_commands.dfy ===
/**
 The two command interfaces of the localizer module: the filter-command
 port, whose commands and tags are YARP vocabs (processCommand), and the
 RPC port, whose requests are bottles whose first item names the command
 (respond). Both act on the module's switches: whether and how filtering
 runs, the hand used for tactile filtering, the contact probe, the
 storage flag and the point-cloud pre-processing settings.
 */
module Commands {
  import opened Common
  import opened Cloud

  /** A vocab character: one non-zero byte. */
  predicate VocabChar(c: char)
  {
    0 < c as int < 256
  }

  /** A vocab: up to four non-zero byte characters. */
  predicate IsVocab(s: string)
  {
    |s| <= 4 && forall i :: 0 <= i < |s| ==> VocabChar(s[i])
  }

  /** VOCAB2/VOCAB3/VOCAB4: the characters packed little-endian, one byte
      each, into an integer. */
  function Vocab(s: string): (v: nat)
    requires IsVocab(s)
    ensures v < Pow256(|s|)
    ensures |s| > 0 ==> v % 256 == s[0] as int
  {
    if |s| == 0 then 0
    else
      var rest := Vocab(s[1..]);
      s[0] as int + 256 * rest
  }

  function Pow256(n: nat): (p: nat)
    ensures p > 0
  {
    if n == 0 then 1 else 256 * Pow256(n - 1)
  }

  /** The characters of a vocab integer, lowest byte first, up to the first
      zero byte. */
  function Unvocab(v: nat): (s: string)
    decreases v
  {
    if v % 256 == 0 then "" else [(v % 256) as char] + Unvocab(v / 256)
  }

  /** Reading a vocab back gives its characters: no two vocabs share a code. */
  lemma {:induction false} UnvocabVocab(s: string)
    requires IsVocab(s)
    ensures Unvocab(Vocab(s)) == s
  {
    if |s| > 0 {
      var rest := Vocab(s[1..]);
      var v := s[0] as int + 256 * rest;
      assert v / 256 == rest;
      assert IsVocab(s[1..]);
      UnvocabVocab(s[1..]);
      assert [s[0]] + s[1..] == s;
    }
  }

  lemma VocabInjective(a: string, b: string)
    requires IsVocab(a) && IsVocab(b)
    requires Vocab(a) == Vocab(b)
    ensures a == b
  {
    UnvocabVocab(a);
    UnvocabVocab(b);
  }

  /** The command and tag vocabs of the filter-command port. */
  const VocabOn: int := 20047
  const VocabOff: int := 4605519
  const VocabRes: int := 5457234
  const VocabProbeOn: int := 1313821264
  const VocabProbeOff: int := 1179603536
  const VocabVis: int := 5458262
  const VocabTactileRight: int := 1380139348
  const VocabTactileLeft: int := 1279476052
  const VocabRight: int := 1212631378
  const VocabLeft: int := 1413891404

  /** Each constant is the vocab of its letters. */
  lemma VocabConstants()
    ensures VocabOn == Vocab("ON") && VocabOff == Vocab("OFF") && VocabRes == Vocab("RES")
    ensures VocabProbeOn == Vocab("PRON") && VocabProbeOff == Vocab("PROF")
    ensures VocabVis == Vocab("VIS") && VocabTactileRight == Vocab("TACR") && VocabTactileLeft == Vocab("TACL")
    ensures VocabRight == Vocab("RIGH") && VocabLeft == Vocab("LEFT")
  {
  }

  datatype FilteringType = Visual | Tactile

  /** The switches of the localizer module the commands act on. */
  datatype Localizer = Localizer(
    filteringEnabled: bool,
    filteringType: FilteringType,
    tacHand: string,
    probeEnabled: bool,
    isFirstStep: bool,
    storageOn: bool,
    settings: CloudSettings)

  /** stopFiltering: filtering off, and the next activation counts as a
      first step again. */
  function StopFiltering(s: Localizer): (r: Localizer)
    ensures !r.filteringEnabled && r.isFirstStep
    ensures r.(filteringEnabled := s.filteringEnabled, isFirstStep := s.isFirstStep) == s
  {
    s.(filteringEnabled := false, isFirstStep := true)
  }

  /**
   processCommand: ON enables filtering and picks the type from the tag
   (VIS visual, TACR/TACL tactile on the right/left hand, any other tag
   keeps the type); OFF stops filtering; RES stops filtering and asks for
   the filter to be re-initialised (the second result); PRON enables the
   contact probe and picks the hand from the tag (RIGH/LEFT); PROF disables
   the probe. Any other command changes nothing.
   */
  function ProcessCommand(s: Localizer, cmd: int, tag: int): (r: (Localizer, bool))
    ensures r.1 <==> cmd == VocabRes
    ensures r.0.settings == s.settings && r.0.storageOn == s.storageOn
    ensures r.0.filteringEnabled <==>
              cmd == VocabOn || (cmd != VocabOff && cmd != VocabRes && s.filteringEnabled)
    ensures r.0.isFirstStep <==> cmd == VocabOff || cmd == VocabRes || s.isFirstStep
    ensures r.0.probeEnabled <==>
              cmd == VocabProbeOn || (cmd != VocabProbeOff && s.probeEnabled)
    ensures r.0.tacHand != s.tacHand ==>
              (cmd == VocabOn && (tag == VocabTactileRight || tag == VocabTactileLeft)) ||
              (cmd == VocabProbeOn && (tag == VocabRight || tag == VocabLeft))
    ensures r.0.filteringType != s.filteringType ==> cmd == VocabOn
  {
    if cmd == VocabOn then
      var s' := s.(filteringEnabled := true);
      if tag == VocabVis then (s'.(filteringType := Visual), false)
      else if tag == VocabTactileRight then (s'.(filteringType := Tactile, tacHand := "right"), false)
      else if tag == VocabTactileLeft then (s'.(filteringType := Tactile, tacHand := "left"), false)
      else (s', false)
    else if cmd == VocabOff then (StopFiltering(s), false)
    else if cmd == VocabRes then (StopFiltering(s), true)
    else if cmd == VocabProbeOn then
      var s' := s.(probeEnabled := true);
      if tag == VocabRight then (s'.(tacHand := "right"), false)
      else if tag == VocabLeft then (s'.(tacHand := "left"), false)
      else (s', false)
    else if cmd == VocabProbeOff then (s.(probeEnabled := false), false)
    else (s, false)
  }

  /** The tactile tags of ON select the hand they name. */
  lemma TactileTagsSelectHand(s: Localizer)
    ensures ProcessCommand(s, VocabOn, VocabTactileRight).0.tacHand == "right"
    ensures ProcessCommand(s, VocabOn, VocabTactileLeft).0.tacHand == "left"
    ensures ProcessCommand(s, VocabOn, VocabTactileRight).0.filteringType == Tactile
    ensures ProcessCommand(s, VocabOn, VocabVis).0.filteringType == Visual
  {
  }

  /** What the RPC port sends back. */
  datatype Reply =
    | Lines(many: seq<string>)   // the vocab "many" followed by text lines
    | Text(msg: string)
    | Delegated                  // handed to the base module (quit and the like)

  /** The result of one request: the new switches, the reply, and whether
      the filter was re-initialised or the storage cleared. */
  datatype Response = Response(state: Localizer, reply: Reply, filterReset: bool, storageReset: bool)

  /** The on/off item of a pc-* request. */
  predicate OnOff(v: Value)
  {
    v == VString("on") || v == VString("off")
  }

  predicate ValidSubsample(command: seq<Value>)
  {
    |command| == 3 && OnOff(command[1]) && command[2].VInt?
  }

  predicate ValidShuffle(command: seq<Value>)
  {
    |command| == 3 && OnOff(command[1]) && command[2].VDouble?
  }

  predicate ValidOutlierRemoval(command: seq<Value>)
  {
    |command| == 4 && OnOff(command[1]) && command[2].VDouble? && command[3].VInt?
  }

  /** The command name: the text of the first item, empty when it is not a
      string. */
  function CommandName(command: seq<Value>): string
  {
    AsString(Get(command, 0))
  }

  const HelpLines: seq<string> := [
    "Available commands:",
    "- visual-on",
    "- tactile-on <hand_name>",
    "- filter-off",
    "- pc-subsample <on/off> <n_points>",
    "- pc-shuffle <on/off> <resize_factor>",
    "- pc-out-removal <on/off> <radius> <neigh>",
    "- storage-on",
    "- storage-off",
    "- storage-save",
    "- reset",
    "- quit"]

  const InvalidRequest: string := "Invalid request."

  /**
   respond: the RPC requests. saveOk is whether writing the stored data to
   its file succeeded (file output is not modelled).
   */
  function Respond(s: Localizer, command: seq<Value>, saveOk: bool): (r: Response)
    ensures r.reply.Delegated? <==>
              CommandName(command) !in {"help", "visual-on", "tactile-on", "filter-off", "pc-subsample",
                                        "pc-shuffle", "pc-out-removal", "storage-on", "storage-off",
                                        "storage-save", "reset"}
    ensures r.reply.Delegated? ==> r.state == s && !r.filterReset && !r.storageReset
    ensures r.filterReset <==> CommandName(command) == "reset"
    ensures r.storageReset <==> CommandName(command) == "storage-on"
  {
    var name := CommandName(command);
    if name == "help" then Response(s, Lines(HelpLines), false, false)
    else if name == "visual-on" then
      Response(s.(filteringEnabled := true, filteringType := Visual), Text("Visual filtering enabled succesfully."), false, false)
    else if name == "tactile-on" then
      var hand := Get(command, 1);
      if hand.VNull? then Response(s, Text("Hand name is required."), false, false)
      else if !hand.VString? || (hand.s != "right" && hand.s != "left") then
        Response(s, Text("A valid hand name is required."), false, false)
      else
        Response(s.(tacHand := hand.s, filteringEnabled := true, filteringType := Tactile),
                 Text("Tactile filtering enabled succesfully."), false, false)
    else if name == "filter-off" then
      Response(s.(filteringEnabled := false), Text("Filtering disabled succesfully."), false, false)
    else if name == "pc-subsample" then
      if !ValidSubsample(command) then Response(s, Text(InvalidRequest), false, false)
      else
        var st := s.settings.(useSubsampling := command[1] == VString("on"), subsamplePoints := AsInt(command[2]));
        Response(s.(settings := st), Text("Settings for point cloud subsampling accepted."), false, false)
    else if name == "pc-shuffle" then
      if !ValidShuffle(command) then Response(s, Text(InvalidRequest), false, false)
      else
        var st := s.settings.(useShuffle := command[1] == VString("on"), shuffleResize := AsDouble(command[2]));
        Response(s.(settings := st), Text("Settings for point cloud shuffling accepted."), false, false)
    else if name == "pc-out-removal" then
      if !ValidOutlierRemoval(command) then Response(s, Text(InvalidRequest), false, false)
      else
        var st := s.settings.(useOutlierRemoval := command[1] == VString("on"),
                              outlierRadius := AsDouble(command[2]),
                              outlierNeighbours := AsInt(command[3]));
        Response(s.(settings := st), Text("Settings for point cloud outlier removal accepted."), false, false)
    else if name == "storage-on" then
      Response(s.(storageOn := true), Text("Storage enabled succesfully."), false, true)
    else if name == "storage-off" then
      Response(s.(storageOn := false), Text("Storage disabled succesfully."), false, false)
    else if name == "storage-save" then
      Response(s, Text(if saveOk then "Storage saved to file succesfully." else "Storage save failed."), false, false)
    else if name == "reset" then
      Response(s, Text("Filter reset successful."), true, false)
    else Response(s, Delegated, false, false)
  }

  /** A point-cloud request is rejected exactly when it is malformed, and a
      rejected request changes nothing. */
  lemma InvalidRequestChangesNothing(s: Localizer, command: seq<Value>, saveOk: bool)
    requires CommandName(command) in {"pc-subsample", "pc-shuffle", "pc-out-removal"}
    ensures var r := Respond(s, command, saveOk);
            var valid := match CommandName(command)
                         case "pc-subsample" => ValidSubsample(command)
                         case "pc-shuffle" => ValidShuffle(command)
                         case _ => ValidOutlierRemoval(command);
            (r.reply == Text(InvalidRequest) <==> !valid) &&
            (!valid ==> r.state == s) &&
            (valid ==> r.state.filteringEnabled == s.filteringEnabled && r.state.tacHand == s.tacHand)
  {
  }

  /** An accepted subsampling request stores the switch and the stride it
      carries and leaves the other settings alone. */
  lemma SubsampleAccepted(s: Localizer, on: bool, n: int, saveOk: bool)
    ensures var command := [VString("pc-subsample"), VString(if on then "on" else "off"), VInt(n)];
            var r := Respond(s, command, saveOk);
            r.state.settings.useSubsampling == on && r.state.settings.subsamplePoints == n &&
            r.state.settings.(useSubsampling := s.settings.useSubsampling, subsamplePoints := s.settings.subsamplePoints) == s.settings &&
            r.reply == Text("Settings for point cloud subsampling accepted.")
  {
  }

  /** A shuffle factor or an outlier radius written as an integer is not a
      double item and is rejected. */
  lemma IntegerFactorRejected(s: Localizer, n: int, saveOk: bool)
    ensures Respond(s, [VString("pc-shuffle"), VString("on"), VInt(n)], saveOk).reply == Text(InvalidRequest)
    ensures Respond(s, [VString("pc-out-removal"), VString("on"), VInt(n), VInt(n)], saveOk).reply == Text(InvalidRequest)
  {
  }

  /** Only a tactile-on naming the right or the left hand switches tactile
      filtering on; the hand then becomes the filtered hand. */
  lemma TactileOnNeedsHand(s: Localizer, command: seq<Value>, saveOk: bool)
    requires CommandName(command) == "tactile-on"
    ensures var r := Respond(s, command, saveOk);
            var ok := Get(command, 1) == VString("right") || Get(command, 1) == VString("left");
            (ok ==> r.state.filteringEnabled && r.state.filteringType == Tactile && r.state.tacHand == Get(command, 1).s) &&
            (!ok ==> r.state == s) &&
            (Get(command, 1).VNull? ==> r.reply == Text("Hand name is required.")) &&
            (!ok && !Get(command, 1).VNull? ==> r.reply == Text("A valid hand name is required."))
  {
  }

  /** filter-off on the RPC port only switches filtering off: unlike OFF on
      the command port it does not mark the next activation as a first
      step. */
  lemma FilterOffKeepsFirstStep(s: Localizer, saveOk: bool)
    ensures Respond(s, [VString("filter-off")], saveOk).state == s.(filteringEnabled := false)
    ensures ProcessCommand(s, VocabOff, 0).0 == s.(filteringEnabled := false, isFirstStep := true)
  {
  }

  /** The settings change only through the three point-cloud requests. */
  lemma SettingsOnlyThroughPcRequests(s: Localizer, command: seq<Value>, saveOk: bool)
    requires CommandName(command) !in {"pc-subsample", "pc-shuffle", "pc-out-removal"}
    ensures Respond(s, command, saveOk).state.settings == s.settings
  {
  }
}

=== FILE: localizer_contacts.dfy ===
/**
 Tactile measurements of the localizer module: which finger tips touch the
 object, read from the real skin (getContacts), from the simulator's skin
 contact list (getContactsSim) or from the springy-finger models
 (getContactsSpringy); the contact points taken from the forward
 kinematics of the touching fingers (getContactPoints); and the rule that
 a tactile step with at most one contact point is skipped.
 */
module Contacts {
  import opened Common

  datatype Finger = Thumb | Index | Middle | Ring | Little

  /** The five finger names in the order of the springy-finger outputs. */
  const FingerOrder: seq<Finger> := [Thumb, Index, Middle, Ring, Little]

  /** Number of finger-tip taxels; each finger tip holds twelve. */
  const TipTaxels: nat := 60

  /** Size of the skin vector of one hand. */
  const HandSkinSize: nat := 192

  /** First taxel of each finger tip. */
  function TaxelBase(f: Finger): nat
  {
    match f
    case Index => 0
    case Middle => 12
    case Ring => 24
    case Little => 36
    case Thumb => 48
  }

  /** The finger tip a taxel belongs to. */
  function FingerOfTaxel(id: int): Finger
    requires 0 <= id < TipTaxels
  {
    if id < 12 then Index
    else if id < 24 then Middle
    else if id < 36 then Ring
    else if id < 48 then Little
    else Thumb
  }

  /** The mapping agrees with the taxel ranges in both directions. */
  lemma FingerOfTaxelRange(id: int, f: Finger)
    requires 0 <= id < TipTaxels
    ensures FingerOfTaxel(id) == f <==> TaxelBase(f) <= id < TaxelBase(f) + 12
  {
  }

  /** A contacts map with exactly the five finger keys. */
  predicate FiveKeys(contacts: map<Finger, bool>)
  {
    contacts.Keys == AllFingers
  }

  const AllFingers: set<Finger> := {Thumb, Index, Middle, Ring, Little}

  /** Resetting the five fingers gives a map with exactly five keys. */
  lemma ResetFiveKeys(contacts: map<Finger, bool>)
    ensures FiveKeys(contacts[Thumb := false][Index := false][Middle := false][Ring := false][Little := false])
  {
    forall f | f in contacts
      ensures f in AllFingers
    {
      match f
      case Thumb =>
      case Index =>
      case Middle =>
      case Ring =>
      case Little =>
    }
  }

  /** All five fingers, none touching. */
  const NoContacts: map<Finger, bool> := map[Thumb := false, Index := false, Middle := false, Ring := false, Little := false]

  /** Some finger-tip taxel of f reads above zero. */
  predicate TaxelActive(skin: seq<real>, f: Finger)
    requires |skin| >= TipTaxels
  {
    exists i :: TaxelBase(f) <= i < TaxelBase(f) + 12 && skin[i] > 0.0
  }

  /**
   getContacts: the five fingers are reset to false; when a skin vector of
   the hand's size was read, a finger touches exactly when one of its tip
   taxels reads above zero. A missing or wrongly sized vector reports
   failure with every finger false.
   */
  method GetContacts(skin: Option<seq<real>>) returns (ok: bool, contacts: map<Finger, bool>)
    ensures FiveKeys(contacts)
    ensures ok <==> skin.Some? && |skin.value| == HandSkinSize
    ensures !ok ==> contacts == NoContacts
    ensures ok ==> forall f | f in contacts :: contacts[f] <==> TaxelActive(skin.value, f)
  {
    contacts := NoContacts;
    if skin.None? || |skin.value| != HandSkinSize {
      return false, contacts;
    }
    var data := skin.value;
    var i := 0;
    while i < TipTaxels
      invariant 0 <= i <= TipTaxels
      invariant FiveKeys(contacts)
      invariant forall f | f in contacts :: contacts[f] <==> ActiveBelow(data, f, i)
    {
      ContactStep(data, contacts, i);
      if data[i] > 0.0 {
        contacts := contacts[FingerOfTaxel(i) := true];
      }
      i := i + 1;
    }
    ok := true;
  }

  /** Some tip taxel of f below i reads above zero. */
  predicate ActiveBelow(data: seq<real>, f: Finger, i: nat)
    requires |data| >= TipTaxels
  {
    exists j :: TaxelBase(f) <= j < TaxelBase(f) + 12 && j < i && data[j] > 0.0
  }

  /** Reading taxel i sets exactly the finger it belongs to when it reads
      above zero; once every tip taxel is read, a finger is set exactly
      when one of its taxels is active. */
  lemma ContactStep(data: seq<real>, contacts: map<Finger, bool>, i: nat)
    requires |data| >= TipTaxels && i < TipTaxels
    requires FiveKeys(contacts)
    requires forall f | f in contacts :: contacts[f] <==> ActiveBelow(data, f, i)
    ensures var c := if data[i] > 0.0 then contacts[FingerOfTaxel(i) := true] else contacts;
            FiveKeys(c) && forall f | f in c :: c[f] <==> ActiveBelow(data, f, i + 1)
    ensures i + 1 == TipTaxels ==> forall f :: ActiveBelow(data, f, i + 1) <==> TaxelActive(data, f)
  {
    forall g: Finger
      ensures ActiveBelow(data, g, i + 1) <==> ActiveBelow(data, g, i) || (FingerOfTaxel(i) == g && data[i] > 0.0)
    {
      FingerOfTaxelRange(i, g);
      if FingerOfTaxel(i) == g && data[i] > 0.0 {
        assert TaxelBase(g) <= i < TaxelBase(g) + 12;
      }
    }
  }

  /** Skin parts the simulator reports contacts on. */
  datatype SkinPart = RightHand | LeftHand | OtherPart

  /** One simulated skin contact: the first taxel of its taxel list, the
      skin part and the geometric centre of the contact. */
  datatype SkinContact = SkinContact(taxel: int, part: SkinPart, center: Vec3)

  /** The contact comes from a finger tip of the filtered hand. */
  predicate OnHand(hand: string, c: SkinContact)
  {
    0 <= c.taxel < TipTaxels &&
    ((hand == "right" && c.part == RightHand) || (hand == "left" && c.part == LeftHand))
  }

  /** The contact touches finger f of the filtered hand. */
  predicate Touches(hand: string, c: SkinContact, f: Finger)
  {
    OnHand(hand, c) && FingerOfTaxel(c.taxel) == f
  }

  /** j is the last contact of the list touching f. */
  predicate LastTouch(hand: string, list: seq<SkinContact>, f: Finger, j: nat)
  {
    j < |list| && Touches(hand, list[j], f) &&
    forall k :: j < k < |list| ==> !Touches(hand, list[k], f)
  }

  /** What getContactsSim has established after reading the contacts cs:
      the fingers touched by some contact of cs are true, the others false,
      a touched finger's point is the centre of its last contact, and the
      points of untouched fingers are the ones held before. */
  predicate SimRead(hand: string, cs: seq<SkinContact>, contacts: map<Finger, bool>,
                    points: map<Finger, Vec3>, points': map<Finger, Vec3>)
  {
    FiveKeys(contacts) && SimMarks(hand, cs, contacts) &&
    SimPoints(hand, cs, contacts, points') && SimKeeps(contacts, points, points')
  }

  /** A finger is marked exactly when some contact of cs touches it. */
  predicate SimMarks(hand: string, cs: seq<SkinContact>, contacts: map<Finger, bool>)
  {
    forall f | f in contacts :: contacts[f] <==> exists j :: 0 <= j < |cs| && Touches(hand, cs[j], f)
  }

  /** A marked finger's point is the centre of its last contact in cs. */
  predicate SimPoints(hand: string, cs: seq<SkinContact>, contacts: map<Finger, bool>, points': map<Finger, Vec3>)
  {
    forall f | f in contacts :: contacts[f] ==>
      f in points' && exists j: nat | j < |cs| :: LastTouch(hand, cs, f, j) && points'[f] == cs[j].center
  }

  /** An unmarked finger keeps the point it had. */
  predicate SimKeeps(contacts: map<Finger, bool>, points: map<Finger, Vec3>, points': map<Finger, Vec3>)
  {
    forall f | f in contacts :: !contacts[f] ==>
      (f in points' <==> f in points) && (f in points ==> points'[f] == points[f])
  }

  /** One more contact read: a contact on the hand's finger tip marks its
      finger and moves the finger's point to the contact's centre. */
  function SimApply(hand: string, c: SkinContact, contacts: map<Finger, bool>, points: map<Finger, Vec3>)
    : (r: (map<Finger, bool>, map<Finger, Vec3>))
    ensures r.0.Keys == contacts.Keys + (if OnHand(hand, c) then {FingerOfTaxel(c.taxel)} else {})
    ensures forall f | f in contacts && !Touches(hand, c, f) :: r.0[f] == contacts[f]
    ensures forall f | f in points && !Touches(hand, c, f) :: f in r.1 && r.1[f] == points[f]
    ensures forall f | f in r.1 && !Touches(hand, c, f) :: f in points
    ensures forall f | Touches(hand, c, f) :: f in r.0 && r.0[f] && f in r.1 && r.1[f] == c.center
  {
    if OnHand(hand, c) then
      (contacts[FingerOfTaxel(c.taxel) := true], points[FingerOfTaxel(c.taxel) := c.center])
    else (contacts, points)
  }

  lemma {:induction false} SimMarksSnoc(hand: string, cs: seq<SkinContact>, c: SkinContact,
                                         contacts: map<Finger, bool>, points: map<Finger, Vec3>)
    requires SimMarks(hand, cs, contacts)
    ensures SimMarks(hand, cs + [c], SimApply(hand, c, contacts, points).0)
  {
    var r := SimApply(hand, c, contacts, points).0;
    var cs' := cs + [c];
    forall f | f in r
      ensures r[f] <==> exists j :: 0 <= j < |cs'| && Touches(hand, cs'[j], f)
    {
      if !Touches(hand, c, f) {
        assert f in contacts;
        if r[f] {
          var j :| 0 <= j < |cs| && Touches(hand, cs[j], f);
          assert cs'[j] == cs[j];
        }
        if exists j :: 0 <= j < |cs'| && Touches(hand, cs'[j], f) {
          var j :| 0 <= j < |cs'| && Touches(hand, cs'[j], f);
          assert cs'[j] == cs[j];
        }
      } else {
        assert cs'[|cs|] == c;
      }
    }
  }

  lemma {:induction false} SimPointsSnoc(hand: string, cs: seq<SkinContact>, c: SkinContact,
                                          contacts: map<Finger, bool>, points': map<Finger, Vec3>)
    requires SimPoints(hand, cs, contacts, points')
    ensures var r := SimApply(hand, c, contacts, points');
            SimPoints(hand, cs + [c], r.0, r.1)
  {
    var r := SimApply(hand, c, contacts, points');
    var cs' := cs + [c];
    forall f | f in r.0 && r.0[f]
      ensures f in r.1 && exists j: nat | j < |cs'| :: LastTouch(hand, cs', f, j) && r.1[f] == cs'[j].center
    {
      if Touches(hand, c, f) {
        assert LastTouch(hand, cs', f, |cs|);
      } else {
        var j: nat :| j < |cs| && LastTouch(hand, cs, f, j) && points'[f] == cs[j].center;
        assert cs'[j] == cs[j];
        assert LastTouch(hand, cs', f, j);
      }
    }
  }

  lemma SimKeepsSnoc(hand: string, c: SkinContact, contacts: map<Finger, bool>,
                     points: map<Finger, Vec3>, points': map<Finger, Vec3>)
    requires SimKeeps(contacts, points, points')
    ensures var r := SimApply(hand, c, contacts, points');
            SimKeeps(r.0, points, r.1)
  {
  }

  /**
   getContactsSim: with no contact list available it fails and leaves both
   maps as they were. Otherwise the five fingers are reset and a finger
   touches exactly when some contact of the filtered hand falls on its tip;
   its contact point is the centre of the last such contact, and points of
   untouched fingers are left as they were.
   */
  method GetContactsSim(hand: string, list: Option<seq<SkinContact>>,
                        contacts: map<Finger, bool>, points: map<Finger, Vec3>)
    returns (ok: bool, contacts': map<Finger, bool>, points': map<Finger, Vec3>)
    ensures ok <==> list.Some?
    ensures !ok ==> contacts' == contacts && points' == points
    ensures ok ==> SimRead(hand, list.value, contacts', points, points')
  {
    if list.None? {
      return false, contacts, points;
    }
    var cs := list.value;
    contacts' := contacts[Thumb := false][Index := false][Middle := false][Ring := false][Little := false];
    ResetFiveKeys(contacts);
    points' := points;
    var i := 0;
    while i < |cs|
      invariant 0 <= i <= |cs|
      invariant SimRead(hand, cs[..i], contacts', points, points')
    {
      SimMarksSnoc(hand, cs[..i], cs[i], contacts', points');
      SimPointsSnoc(hand, cs[..i], cs[i], contacts', points');
      SimKeepsSnoc(hand, cs[i], contacts', points, points');
      assert cs[..i + 1] == cs[..i] + [cs[i]];
      contacts', points' := SimApply(hand, cs[i], contacts', points').0, SimApply(hand, cs[i], contacts', points').1;
      i := i + 1;
    }
    assert cs[..|cs|] == cs;
    ok := true;
  }

  /** The tactile step reads the simulated contacts into empty maps, so the
      contact points are exactly those of the touched fingers. */
  lemma SimPointsAreContacts(hand: string, cs: seq<SkinContact>, contacts: map<Finger, bool>,
                             points': map<Finger, Vec3>)
    requires SimRead(hand, cs, contacts, map[], points')
    ensures forall f :: f in points' <==> f in contacts && contacts[f]
  {
    forall f
      ensures f in points' <==> f in contacts && contacts[f]
    {
      match f
      case Thumb =>
      case Index =>
      case Middle =>
      case Ring =>
      case Little =>
    }
  }

  /**
   getContactsSpringy: only the right and the left hand are known; for any
   other name it fails and leaves the contacts as they were. Otherwise the
   five fingers are reset and finger i (in the order thumb, index, middle,
   ring, little) touches exactly when output i of the hand's springy model
   is strictly above its threshold; a missing output reads as zero.
   */
  function GetContactsSpringy(hand: string, rightOutput: seq<Value>, leftOutput: seq<Value>,
                              rightThres: seq<real>, leftThres: seq<real>,
                              contacts: map<Finger, bool>): (r: (bool, map<Finger, bool>))
    requires |rightThres| >= 5 && |leftThres| >= 5
    ensures r.0 <==> hand == "right" || hand == "left"
    ensures !r.0 ==> r.1 == contacts
    ensures r.0 ==> FiveKeys(r.1)
    ensures hand == "right" ==> forall i :: 0 <= i < 5 ==> (r.1[FingerOrder[i]] <==> AsDouble(Get(rightOutput, i)) > rightThres[i])
    ensures hand == "left" ==> forall i :: 0 <= i < 5 ==> (r.1[FingerOrder[i]] <==> AsDouble(Get(leftOutput, i)) > leftThres[i])
  {
    if hand == "right" then (true, SpringyContacts(rightOutput, rightThres))
    else if hand == "left" then (true, SpringyContacts(leftOutput, leftThres))
    else (false, contacts)
  }

  /** Thresholding of the five springy outputs. */
  function SpringyContacts(output: seq<Value>, thres: seq<real>): (contacts: map<Finger, bool>)
    requires |thres| >= 5
    ensures FiveKeys(contacts)
    ensures forall i :: 0 <= i < 5 ==> (contacts[FingerOrder[i]] <==> AsDouble(Get(output, i)) > thres[i])
  {
    map[Thumb := AsDouble(Get(output, 0)) > thres[0],
        Index := AsDouble(Get(output, 1)) > thres[1],
        Middle := AsDouble(Get(output, 2)) > thres[2],
        Ring := AsDouble(Get(output, 3)) > thres[3],
        Little := AsDouble(Get(output, 4)) > thres[4]]
  }

  /** Raising the thresholds can only remove contacts: a finger that
      touches under the higher thresholds touches under the lower ones. */
  lemma SpringyThresholdMonotone(output: seq<Value>, low: seq<real>, high: seq<real>)
    requires |low| >= 5 && |high| >= 5
    requires forall i :: 0 <= i < 5 ==> low[i] <= high[i]
    ensures forall f :: f in AllFingers && SpringyContacts(output, high)[f] ==> SpringyContacts(output, low)[f]
  {
    forall f | f in AllFingers && SpringyContacts(output, high)[f]
      ensures SpringyContacts(output, low)[f]
    {
      var i := if f == Thumb then 0 else if f == Index then 1 else if f == Middle then 2 else if f == Ring then 3 else 4;
      assert FingerOrder[i] == f;
    }
  }

  /**
   getContactPoints: the contact points are the kinematic finger positions
   of exactly the touching fingers. Looking up the position of a touching
   finger that has none throws, which is the None result.
   */
  function GetContactPoints(contacts: map<Finger, bool>, positions: map<Finger, Vec3>): (r: Option<map<Finger, Vec3>>)
    ensures r.None? <==> exists f :: f in contacts && contacts[f] && f !in positions
    ensures r.Some? ==> forall f :: f in r.value <==> f in contacts && contacts[f]
    ensures r.Some? ==> forall f :: f in r.value ==> r.value[f] == positions[f]
  {
    if exists f :: f in contacts && contacts[f] && f !in positions then None
    else Some(map f | f in contacts && contacts[f] :: positions[f])
  }

  /** What a tactile filtering step does with its contact points. */
  datatype TactileAction = NoData | SkipStep | FilterStep(points: map<Finger, Vec3>)

  /** A tactile step: no data when the contacts could not be read, a skipped
      step with at most one contact point, otherwise a filtering step on the
      contact points. The first step also resets the filter's clock, which
      clears the first-step flag; a read failure returns before that. */
  function TactileStep(contactsRead: bool, points: map<Finger, Vec3>, isFirstStep: bool): (r: (TactileAction, bool))
    ensures !contactsRead ==> r == (NoData, isFirstStep)
    ensures contactsRead ==> !r.1
    ensures contactsRead ==> (r.0.SkipStep? <==> |points| <= 1)
    ensures contactsRead && |points| > 1 ==> r.0 == FilterStep(points)
  {
    if !contactsRead then (NoData, isFirstStep)
    else if |points| <= 1 then (SkipStep, false)
    else (FilterStep(points), false)
  }

  /** On the real robot the step is skipped exactly when at most one finger
      touches (given every touching finger has a kinematic position). */
  lemma RealSkipIffFewContacts(contacts: map<Finger, bool>, positions: map<Finger, Vec3>, isFirstStep: bool)
    requires GetContactPoints(contacts, positions).Some?
    ensures var pts := GetContactPoints(contacts, positions).value;
            TactileStep(true, pts, isFirstStep).0.SkipStep? <==>
              |set f | f in contacts && contacts[f]| <= 1
  {
    var pts := GetContactPoints(contacts, positions).value;
    assert pts.Keys == set f | f in contacts && contacts[f];
  }
}

=== FILE: manipulation_demo.dfy ===
/**
 The status machine of the manipulation demo. The module thread looks at
 the current status once per period and runs the action the status
 stands for; the outcome of that robot call (a Cartesian move, a hand
 action, a motion-done check) is an input here, as is the time elapsed
 since the last timer reset. The RPC handlers that set the status live in
 the DemoRpc module.
 */
module Demo {
  import opened Common

  datatype Status =
    | Idle
    | MoveUp | MoveDown | MoveLeft | MoveRight | MoveIn | MoveOut | WaitHandMove
    | LatchCoarseApproachPoint
    | MoveCoarseApproach | MovePreciseApproach
    | TestCoarseApproach | TestPreciseApproach
    | OpenHand | CloseHand | PostCloseHand | WaitOpenHand | WaitCloseHand
    | DoPour
    | MoveRest | WaitArmRest
    | MoveHome | WaitArmHome
    | StartMotion | MoveTrajectory
    | Stop

  /** The demo's mutable state: the status and the one before the last
      request, the hand in use, the arms being sent to rest or home,
      whether the arm context saved before a home move has been restored,
      and whether the module was asked to close. */
  datatype Demo = Demo(
    status: Status,
    previous: Status,
    hand: string,
    handRest: string,
    handHome: string,
    contextRestored: bool,
    closing: bool)

  /** Configuration read at start-up. */
  datatype Config = Config(
    enableTorso: bool,
    moveTimeout: real,
    restTimeout: real,
    homeTimeout: real,
    openTimeout: real,
    closeTimeout: real)

  /** The state after configure: idle on both counts, no hand, context
      restored. */
  const Initial: Demo := Demo(Idle, Idle, "", "", "", true, false)

  predicate IsHand(l: string)
  {
    l == "right" || l == "left"
  }

  datatype Arm = RightArm | LeftArm

  /** getArmController: the controller of the named arm, none for any
      other name. */
  function ArmController(l: string): (r: Option<Arm>)
    ensures r.Some? <==> IsHand(l)
    ensures r == Some(RightArm) <==> l == "right"
  {
    if l == "right" then Some(RightArm)
    else if l == "left" then Some(LeftArm)
    else None
  }

  function ArmName(a: Arm): string
  {
    match a
    case RightArm => "right"
    case LeftArm => "left"
  }

  /** Naming an arm and looking its controller up are inverse. */
  lemma ArmControllerName(a: Arm, l: string)
    ensures ArmController(ArmName(a)) == Some(a)
    ensures ArmController(l).Some? ==> ArmName(ArmController(l).value) == l
  {
  }

  /** The six hand-shift states and their directions. */
  predicate IsShift(s: Status)
  {
    s.MoveUp? || s.MoveDown? || s.MoveLeft? || s.MoveRight? || s.MoveIn? || s.MoveOut?
  }

  function Direction(s: Status): string
    requires IsShift(s)
  {
    match s
    case MoveUp => "up"
    case MoveDown => "down"
    case MoveLeft => "left"
    case MoveRight => "right"
    case MoveIn => "in"
    case MoveOut => "out"
  }

  /** The shift of the palm position for one direction: up and down move
      along z, left and right along y, in and out along x. Any other
      direction leaves the position where it is. */
  function Shift(p: Vec3, direction: string, h: real): (q: Vec3)
    ensures direction == "up" ==> q == p.(z := p.z + h)
    ensures direction == "down" ==> q == p.(z := p.z - h)
    ensures direction == "left" ==> q == p.(y := p.y - h)
    ensures direction == "right" ==> q == p.(y := p.y + h)
    ensures direction == "in" ==> q == p.(x := p.x - h)
    ensures direction == "out" ==> q == p.(x := p.x + h)
    ensures direction !in {"up", "down", "left", "right", "in", "out"} ==> q == p
  {
    if direction == "up" then p.(z := p.z + h)
    else if direction == "down" then p.(z := p.z - h)
    else if direction == "left" then p.(y := p.y - h)
    else if direction == "right" then p.(y := p.y + h)
    else if direction == "in" then p.(x := p.x - h)
    else if direction == "out" then p.(x := p.x + h)
    else p
  }

  function Opposite(direction: string): string
  {
    match direction
    case "up" => "down"
    case "down" => "up"
    case "left" => "right"
    case "right" => "left"
    case "in" => "out"
    case "out" => "in"
    case _ => direction
  }

  /** A shift followed by the opposite shift returns the hand where it was,
      and a shift moves the hand by exactly the shift length. */
  lemma ShiftOpposite(p: Vec3, direction: string, h: real)
    ensures Shift(Shift(p, direction, h), Opposite(direction), h) == p
    ensures var q := Shift(p, direction, h);
            direction in {"up", "down", "left", "right", "in", "out"} ==>
              Abs(q.x - p.x) + Abs(q.y - p.y) + Abs(q.z - p.z) == Abs(h)
  {
  }

  /** Shortest shift time a hand shift accepts, in seconds. */
  const MinShiftTime: real := 1.0

  /** Shortest trajectory time of a rest or home move, in seconds. */
  const MinTrajTime: real := 1.0

  /** Shortest time between two set points of a followed trajectory. */
  const MinFollowTime: real := 0.8

  /**
   moveHand: checks the hand in use, reads the palm pose (None when the
   pose cannot be read), shifts it, refuses a shift time below one second,
   sets the trajectory time (setTrajOk) and sends the shifted position
   (goOk). The second result is the position sent, if one was.
   */
  function MoveHand(hand: string, direction: string, pose: Option<Vec3>, h: real,
                    shiftTime: real, setTrajOk: bool, goOk: bool): (r: (bool, Option<Vec3>))
    ensures r.1.Some? <==> IsHand(hand) && pose.Some? && shiftTime >= MinShiftTime && setTrajOk
    ensures r.1.Some? ==> r.1.value == Shift(pose.value, direction, h)
    ensures r.0 <==> r.1.Some? && goOk
  {
    if !IsHand(hand) || ArmController(hand).None? || pose.None? then (false, None)
    else
      var target := Shift(pose.value, direction, h);
      if shiftTime < MinShiftTime || !setTrajOk then (false, None)
      else (goOk, Some(target))
  }

  /** startMoveHandTrajctory: refuses a following time below 0.8 s; the
      other inputs are whether the pose could be read and whether the
      controller took the trajectory time. */
  function StartTrajectory(hand: string, poseOk: bool, followTime: real, setTrajOk: bool): (ok: bool)
    ensures ok ==> IsHand(hand) && poseOk && setTrajOk && followTime >= MinFollowTime
  {
    ArmController(hand).Some? && poseOk && followTime >= MinFollowTime && setTrajOk
  }

  /**
   moveArmRest and moveArmHome: check the arm name, refuse a trajectory
   time below one second, set it and send the arm to its stored pose.
   limitsOk says whether the torso could be held still, which only the
   home move with the torso enabled tries (it is true otherwise).
   */
  function MoveArm(laterality: string, trajTime: real, limitsOk: bool, setTrajOk: bool, goOk: bool): (ok: bool)
    ensures ok ==> IsHand(laterality) && trajTime >= MinTrajTime && limitsOk && setTrajOk && goOk
  {
    IsHand(laterality) && ArmController(laterality).Some? && limitsOk &&
    !(trajTime < MinTrajTime) && setTrajOk && goOk
  }

  /** What the current period observed: the outcome of the status's robot
      call (a hand shift, a rest move and a home move also fail by
      themselves on an arm name that is neither right nor left), the
      outcome of the motion-done check, whether the motion is done, and the
      time since the timer was last reset. */
  datatype Tick = Tick(actionOk: bool, checkOk: bool, done: bool, elapsed: real)

  /** The states that run one robot call and move on. */
  predicate IsAction(s: Status)
  {
    IsShift(s) || s.OpenHand? || s.CloseHand? || s.PostCloseHand? ||
    s.MoveCoarseApproach? || s.MovePreciseApproach? || s.DoPour? ||
    s.StartMotion? || s.MoveRest? || s.MoveHome?
  }

  /** Where a successful action leads. */
  function ActionSuccessor(s: Status): Status
    requires IsAction(s)
  {
    if s.OpenHand? then WaitOpenHand
    else if s.CloseHand? then WaitCloseHand
    else if s.StartMotion? then MoveTrajectory
    else if s.MoveRest? then WaitArmRest
    else if s.MoveHome? then WaitArmHome
    else WaitHandMove
  }

  /** The result of one period: the new state and whether the timer was
      reset. */
  datatype Period = Period(demo: Demo, timerReset: bool)

  /**
   updateModule: one period of the status machine. A closing module does
   nothing. Otherwise each status runs its step; every failure goes back
   to Idle, and every departure from WaitArmRest or WaitArmHome forgets the
   arm it moved. Stop always ends in Idle, restoring the context saved
   before a home move when the torso is enabled, the stop came from that
   move and the context is still to be restored.
   */
  function Update(cfg: Config, d: Demo, t: Tick): (r: Period)
    ensures d.closing ==> r.demo == d && !r.timerReset
    ensures r.demo.previous == d.previous && r.demo.hand == d.hand && r.demo.closing == d.closing
    ensures r.timerReset ==> r.demo.status in {WaitOpenHand, WaitCloseHand, WaitHandMove, MoveTrajectory, WaitArmRest, WaitArmHome}
    ensures !d.closing && d.status.Stop? ==> r.demo.status.Idle?
  {
    if d.closing then Period(d, false)
    else
      match d.status
      case Idle => Period(d, false)
      case WaitOpenHand =>
        if !t.checkOk || t.elapsed > cfg.openTimeout then Period(d.(status := Idle), false)
        else Period(d, false)
      case WaitCloseHand =>
        if !t.checkOk then Period(d.(status := Idle), false)
        else if t.elapsed > cfg.closeTimeout then Period(d.(status := PostCloseHand), false)
        else Period(d, false)
      case LatchCoarseApproachPoint => Period(d.(status := Idle), false)
      case TestCoarseApproach => Period(d.(status := Idle), false)
      case TestPreciseApproach => Period(d.(status := Idle), false)
      case MoveTrajectory =>
        if !t.actionOk then Period(d.(status := Idle), false) else Period(d, false)
      case WaitHandMove =>
        if !t.checkOk || t.elapsed > cfg.moveTimeout || t.done then Period(d.(status := Idle), false)
        else Period(d, false)
      case WaitArmRest =>
        if !t.checkOk || t.elapsed > cfg.restTimeout || t.done then Period(d.(status := Idle, handRest := ""), false)
        else Period(d, false)
      case WaitArmHome =>
        if !t.checkOk || t.elapsed > cfg.homeTimeout || t.done then
          Period(d.(status := Idle, handHome := "", contextRestored := cfg.enableTorso || d.contextRestored), false)
        else Period(d, false)
      case MoveRest =>
        if !t.actionOk || !IsHand(d.handRest) then Period(d.(status := Idle, handRest := ""), false)
        else Period(d.(status := WaitArmRest), true)
      case MoveHome =>
        if !t.actionOk || !IsHand(d.handHome) then Period(d.(status := Idle, handHome := ""), false)
        else Period(d.(status := WaitArmHome, contextRestored := !cfg.enableTorso && d.contextRestored), true)
      case Stop =>
        var restore := cfg.enableTorso && (d.previous.MoveHome? || d.previous.WaitArmHome?) &&
                       !d.contextRestored && IsHand(d.handHome);
        Period(d.(status := Idle, contextRestored := d.contextRestored || restore), false)
      case _ =>
        if !t.actionOk || (IsShift(d.status) && !IsHand(d.hand)) then Period(d.(status := Idle), false)
        else Period(d.(status := ActionSuccessor(d.status)), true)
  }

  /** The arm an action moves is named correctly, where the action checks
      it. */
  predicate ArmNamed(d: Demo)
  {
    (IsShift(d.status) ==> IsHand(d.hand)) &&
    (d.status.MoveRest? ==> IsHand(d.handRest)) &&
    (d.status.MoveHome? ==> IsHand(d.handHome))
  }

  /** The action table: every action goes to Idle when its robot call
      fails and to its successor, with the timer reset, when it succeeds;
      the tests and the approach-point latch go to Idle either way. */
  lemma ActionTransitions(cfg: Config, d: Demo, t: Tick)
    requires !d.closing
    ensures IsAction(d.status) && !(t.actionOk && ArmNamed(d)) ==> Update(cfg, d, t).demo.status == Idle
    ensures IsAction(d.status) && t.actionOk && ArmNamed(d) ==>
              Update(cfg, d, t).demo.status == ActionSuccessor(d.status) && Update(cfg, d, t).timerReset
    ensures d.status in {TestCoarseApproach, TestPreciseApproach, LatchCoarseApproachPoint} ==>
              Update(cfg, d, t).demo.status == Idle
  {
  }

  /** The three motion waits leave exactly on a failed check, a timeout or
      a finished motion, always for Idle; the rest and home waits then
      forget their arm. */
  lemma WaitTransitions(cfg: Config, d: Demo, t: Tick)
    requires !d.closing
    requires d.status in {WaitHandMove, WaitArmRest, WaitArmHome}
    ensures var timeout := match d.status
                           case WaitHandMove => cfg.moveTimeout
                           case WaitArmRest => cfg.restTimeout
                           case _ => cfg.homeTimeout;
            var leave := !t.checkOk || t.elapsed > timeout || t.done;
            var r := Update(cfg, d, t).demo;
            (leave ==> r.status == Idle) && (!leave ==> r == d) &&
            (leave && d.status.WaitArmRest? ==> r.handRest == "") &&
            (leave && d.status.WaitArmHome? ==> r.handHome == "")
  {
  }

  /** The hand waits ignore whether the hand says it is done: opening ends
      in Idle and closing in PostCloseHand once the timeout has passed. */
  lemma HandWaitsUseTimeout(cfg: Config, d: Demo, t: Tick)
    requires !d.closing && t.checkOk
    ensures d.status.WaitOpenHand? ==>
              Update(cfg, d, t).demo.status == (if t.elapsed > cfg.openTimeout then Idle else WaitOpenHand)
    ensures d.status.WaitCloseHand? ==>
              Update(cfg, d, t).demo.status == (if t.elapsed > cfg.closeTimeout then PostCloseHand else WaitCloseHand)
  {
  }

  /** Periods left before Idle once every timeout has passed. */
  function Distance(s: Status): nat
  {
    match s
    case Idle => 0
    case WaitHandMove => 1
    case WaitArmRest => 1
    case WaitArmHome => 1
    case WaitOpenHand => 1
    case MoveTrajectory => 1
    case PostCloseHand => 2
    case WaitCloseHand => 3
    case CloseHand => 4
    case _ => 2
  }

  /** Once every timeout has passed, each period brings the demo closer to
      Idle; only a trajectory that keeps being followed does not end. */
  lemma TimeoutsLeadToIdle(cfg: Config, d: Demo, t: Tick)
    requires !d.closing && !d.status.Idle?
    requires t.elapsed > cfg.moveTimeout && t.elapsed > cfg.restTimeout && t.elapsed > cfg.homeTimeout
    requires t.elapsed > cfg.openTimeout && t.elapsed > cfg.closeTimeout
    requires d.status.MoveTrajectory? ==> !t.actionOk
    ensures Distance(Update(cfg, d, t).demo.status) < Distance(d.status)
  {
  }

  /** The context saved before a home move is pending only while the arm
      is on its way home, or while a stop that interrupted it is still to
      be handled; the arm being moved is then a valid hand. */
  predicate ContextPending(cfg: Config, d: Demo)
  {
    cfg.enableTorso && !d.contextRestored ==>
      IsHand(d.handHome) && (d.status.WaitArmHome? || (d.status.Stop? && d.previous.WaitArmHome?))
  }

  /** Every period keeps the pending context accounted for, and a period
      that handles a stop leaves nothing pending. */
  lemma UpdateKeepsContextPending(cfg: Config, d: Demo, t: Tick)
    requires ContextPending(cfg, d)
    ensures ContextPending(cfg, Update(cfg, d, t).demo)
    ensures !d.closing && d.status.Stop? && cfg.enableTorso ==> Update(cfg, d, t).demo.contextRestored
  {
  }

  /** The hand shift states run moveHand: a shift time below one second
      sends the demo back to Idle, and it waits for the hand exactly when a
      valid hand's pose was read, shifted and sent. */
  lemma ShiftGuards(cfg: Config, d: Demo, t: Tick, pose: Option<Vec3>, h: real,
                    shiftTime: real, setTrajOk: bool, goOk: bool)
    requires !d.closing && IsShift(d.status)
    requires t.actionOk == MoveHand(d.hand, Direction(d.status), pose, h, shiftTime, setTrajOk, goOk).0
    ensures shiftTime < MinShiftTime ==> Update(cfg, d, t).demo.status == Idle
    ensures Update(cfg, d, t).demo.status == WaitHandMove <==>
              IsHand(d.hand) && pose.Some? && shiftTime >= MinShiftTime && setTrajOk && goOk
    ensures Update(cfg, d, t).demo.status in {Idle, WaitHandMove}
  {
  }

  /** StartMotion runs startMoveHandTrajctory: a following time below 0.8 s
      sends the demo back to Idle, and the trajectory is followed exactly
      when the hand in use is valid, its pose was read and the controller
      took the time. */
  lemma FollowGuards(cfg: Config, d: Demo, t: Tick, poseOk: bool, followTime: real, setTrajOk: bool)
    requires !d.closing && d.status.StartMotion?
    requires t.actionOk == StartTrajectory(d.hand, poseOk, followTime, setTrajOk)
    ensures followTime < MinFollowTime ==> Update(cfg, d, t).demo.status == Idle
    ensures Update(cfg, d, t).demo.status == MoveTrajectory <==>
              IsHand(d.hand) && poseOk && followTime >= MinFollowTime && setTrajOk
    ensures Update(cfg, d, t).demo.status in {Idle, MoveTrajectory}
  {
  }

  /** MoveRest and MoveHome run moveArmRest and moveArmHome on the arm the
      request recorded: a trajectory time below one second sends the demo
      back to Idle and forgets the arm; the demo waits for the arm exactly
      when every call of the move succeeded. */
  lemma ArmMoveGuards(cfg: Config, d: Demo, t: Tick, trajTime: real, limitsOk: bool, setTrajOk: bool, goOk: bool)
    requires !d.closing && (d.status.MoveRest? || d.status.MoveHome?)
    requires t.actionOk ==
               MoveArm(if d.status.MoveRest? then d.handRest else d.handHome, trajTime, limitsOk, setTrajOk, goOk)
    requires d.status.MoveRest? || !cfg.enableTorso ==> limitsOk
    ensures var r := Update(cfg, d, t).demo;
            trajTime < MinTrajTime ==>
              r.status == Idle && (if d.status.MoveRest? then r.handRest else r.handHome) == ""
    ensures var r := Update(cfg, d, t).demo;
            var arm := if d.status.MoveRest? then d.handRest else d.handHome;
            r.status in {WaitArmRest, WaitArmHome} <==>
              IsHand(arm) && trajTime >= MinTrajTime && limitsOk && setTrajOk && goOk
  {
  }
}

=== FILE: manipulation_rpc.dfy ===
/**
 The RPC handlers of the manipulation demo. Apart from stop and quit,
 each one refuses to act unless the demo is idle; the handlers that move
 the hand in use also need that hand to be set. An accepted request
 remembers the status it interrupted and sets the status whose action the
 module thread runs next.
 */
module DemoRpc {
  import opened Common
  import D = Demo

  datatype Request =
    | SetHand(laterality: string)
    | UnsetHand
    | GazeTrackOn
    | GazeTrackOff
    | LatchApproach
    | CoarseApproach
    | TestCoarseApproach
    | PreciseApproach
    | TestPreciseApproach
    | OpenHand
    | CloseHand
    | DoPour
    | MoveUp | MoveDown | MoveLeft | MoveRight | MoveIn | MoveOut
    | MoveRest(laterality: string)
    | MoveHome(laterality: string)
    | StartMotion
    | GetHandPose(laterality: string)
    | Stop
    | Quit

  const Busy: string := "[FAILED] Wait for completion of the current phase."
  const NeedHand: string := "[FAILED] You need to set an hand using set_hand <laterality>"
  const BadHand: string := "[FAILED] You should specify a valid hand name."
  const Issued: string := "[OK] Command issued."

  /** The requests that act on the hand in use and the status each sets. */
  predicate UsesHand(r: Request)
  {
    r.LatchApproach? || r.CoarseApproach? || r.TestCoarseApproach? || r.PreciseApproach? ||
    r.TestPreciseApproach? || r.OpenHand? || r.CloseHand? || r.DoPour? ||
    r.MoveUp? || r.MoveDown? || r.MoveLeft? || r.MoveRight? || r.MoveIn? || r.MoveOut? ||
    r.StartMotion?
  }

  function Target(r: Request): D.Status
    requires UsesHand(r)
  {
    match r
    case LatchApproach => D.LatchCoarseApproachPoint
    case CoarseApproach => D.MoveCoarseApproach
    case TestCoarseApproach => D.TestCoarseApproach
    case PreciseApproach => D.MovePreciseApproach
    case TestPreciseApproach => D.TestPreciseApproach
    case OpenHand => D.OpenHand
    case CloseHand => D.CloseHand
    case DoPour => D.DoPour
    case MoveUp => D.MoveUp
    case MoveDown => D.MoveDown
    case MoveLeft => D.MoveLeft
    case MoveRight => D.MoveRight
    case MoveIn => D.MoveIn
    case MoveOut => D.MoveOut
    case StartMotion => D.StartMotion
  }

  /** Outcomes of the calls a handler makes: whether the gaze controller
      took the tracking mode, and the palm pose of the hand in use as text
      (position, orientation), None when it cannot be read. */
  datatype Robot = Robot(gazeOk: bool, pose: Option<(string, string)>)

  datatype Answer = Answer(demo: D.Demo, reply: string)

  /** stop as written: always accepted, it remembers the status it
      interrupts, even when that status is itself a pending stop. */
  function StopAsWritten(d: D.Demo): (a: Answer)
    ensures a.demo.status == D.Stop && a.demo.previous == d.status && a.reply == Issued
  {
    Answer(d.(previous := d.status, status := D.Stop), Issued)
  }

  /** stop: always accepted; a stop that arrives while an earlier one is
      still pending keeps the status the earlier one interrupted. */
  function StopRequest(d: D.Demo): (a: Answer)
    ensures a.demo.status == D.Stop && a.reply == Issued
    ensures a.demo.previous == if d.status.Stop? then d.previous else d.status
    ensures a.demo.(status := d.status, previous := d.previous) == d
  {
    if d.status.Stop? then Answer(d, Issued)
    else Answer(d.(previous := d.status, status := D.Stop), Issued)
  }

  /** One RPC request and its reply. */
  function Handle(d: D.Demo, r: Request, robot: Robot): (a: Answer)
    ensures !r.Stop? && !r.Quit? && !d.status.Idle? ==> a == Answer(d, Busy)
    ensures UsesHand(r) ==>
              (a.reply == Issued <==> d.status.Idle? && D.IsHand(d.hand)) &&
              (a.reply == Issued ==> a.demo == d.(previous := D.Idle, status := Target(r))) &&
              (a.reply != Issued ==> a.demo == d)
    ensures a.demo.closing <==> d.closing || r.Quit?
    ensures a.demo.contextRestored == d.contextRestored
  {
    if r.Stop? then StopRequest(d)
    else if r.Quit? then Answer(d.(closing := true), "[OK] Closing...")
    else if !d.status.Idle? then Answer(d, Busy)
    else HandleIdle(d, r, robot)
  }

  /** The handlers once the demo is idle. */
  function HandleIdle(d: D.Demo, r: Request, robot: Robot): (a: Answer)
    requires d.status.Idle? && !r.Stop? && !r.Quit?
    ensures a.demo.closing == d.closing && a.demo.contextRestored == d.contextRestored
    ensures a.demo.status != D.Idle ==> a.reply == Issued && a.demo.previous == D.Idle
    ensures UsesHand(r) ==> a == HandRequest(d, r)
  {
    if UsesHand(r) then HandRequest(d, r)
    else if r.SetHand? then
      if !D.IsHand(r.laterality) then Answer(d, BadHand)
      else Answer(d.(hand := r.laterality), "[OK] Set hand " + r.laterality + ".")
    else if r.UnsetHand? then Answer(d.(hand := ""), "[OK] Current hand is now:.")
    else if r.GazeTrackOn? then
      Answer(d, if robot.gazeOk then "[OK] Set gaze tracking on." else "[FAILED] Unable to set gaze tracking.")
    else if r.GazeTrackOff? then
      Answer(d, if robot.gazeOk then "[OK] Stopped gaze tracking." else "[FAILED] Unable to stop gaze tracking.")
    else if r.MoveRest? then
      if !D.IsHand(r.laterality) then Answer(d, BadHand)
      else Answer(d.(previous := d.status, status := D.MoveRest, handRest := r.laterality), Issued)
    else if r.MoveHome? then
      if !D.IsHand(r.laterality) then Answer(d, BadHand)
      else Answer(d.(previous := d.status, status := D.MoveHome, handHome := r.laterality), Issued)
    else
      // get_hand_pose, the one request left
      if !D.IsHand(r.laterality) then Answer(d, "[FAILED] You need to specify a valid laterality.")
      else if D.ArmController(d.hand).None? then Answer(d, "[FAILED] Cannot get the interface to the requested hand.")
      else if robot.pose.None? then Answer(d, "[FAILED] Cannot get the current pose of the requested hand.")
      else Answer(d, "[OK]\n\tPosition: " + robot.pose.value.0 + "\n\tOrientation: " + robot.pose.value.1 + "\n\t")
  }

  /** The requests on the hand in use: refused until a hand is set,
      otherwise the interrupted status is remembered and the request's own
      status set. */
  function HandRequest(d: D.Demo, r: Request): (a: Answer)
    requires UsesHand(r)
    ensures a.reply == Issued <==> D.IsHand(d.hand)
    ensures a.reply == Issued ==> a.demo == d.(previous := d.status, status := Target(r))
    ensures a.reply != Issued ==> a == Answer(d, NeedHand)
  {
    if !D.IsHand(d.hand) then Answer(d, NeedHand)
    else Answer(d.(previous := d.status, status := Target(r)), Issued)
  }

  /** set_hand, move_rest and move_home take only the right or the left
      hand; the latter two record the arm they will move. unset_hand
      forgets the hand. */
  lemma LateralityChecked(d: D.Demo, l: string, robot: Robot)
    requires d.status.Idle?
    ensures var a := Handle(d, SetHand(l), robot);
            (D.IsHand(l) ==> a.demo.hand == l) && (!D.IsHand(l) ==> a == Answer(d, BadHand))
    ensures var a := Handle(d, MoveRest(l), robot);
            (D.IsHand(l) ==> a.demo.status == D.MoveRest && a.demo.handRest == l && a.reply == Issued) &&
            (!D.IsHand(l) ==> a == Answer(d, BadHand))
    ensures var a := Handle(d, MoveHome(l), robot);
            (D.IsHand(l) ==> a.demo.status == D.MoveHome && a.demo.handHome == l && a.reply == Issued) &&
            (!D.IsHand(l) ==> a == Answer(d, BadHand))
    ensures Handle(d, UnsetHand, robot).demo.hand == ""
  {
    assert !UsesHand(SetHand(l)) && !UsesHand(MoveRest(l)) && !UsesHand(MoveHome(l)) && !UsesHand(UnsetHand);
  }

  /** get_hand_pose checks the laterality it is given but reads the pose of
      the hand in use: with no hand in use it fails even for a valid
      laterality. */
  lemma HandPoseUsesHandInUse(d: D.Demo, l: string, robot: Robot)
    requires d.status.Idle? && D.IsHand(l) && !D.IsHand(d.hand)
    ensures Handle(d, GetHandPose(l), robot).reply == "[FAILED] Cannot get the interface to the requested hand."
  {
  }

  /** Whatever state an accepted request leaves the module in, the module
      thread can act on it: a hand-shift, rest or home status always comes
      with a valid arm name. */
  lemma AcceptedRequestsNameTheirArm(d: D.Demo, r: Request, robot: Robot)
    requires d.status.Idle?
    ensures D.ArmNamed(Handle(d, r, robot).demo)
  {
  }

  /** With stop as written, a second stop arriving before the module thread
      has handled the first makes the module forget that the first one
      interrupted a home move: the context saved before the move is never
      restored. */
  lemma StopTwiceLosesContext()
    ensures var cfg := D.Config(true, 10.0, 10.0, 10.0, 10.0, 10.0);
            var d := D.Demo(D.WaitArmHome, D.Idle, "right", "", "right", false, false);
            var t := D.Tick(true, true, false, 0.0);
            D.ContextPending(cfg, d) &&
            D.ContextPending(cfg, StopAsWritten(d).demo) &&
            !D.ContextPending(cfg, StopAsWritten(StopAsWritten(d).demo).demo) &&
            var after := D.Update(cfg, StopAsWritten(StopAsWritten(d).demo).demo, t).demo;
            after.status == D.Idle && !after.contextRestored
  {
  }

  /** Every request keeps the saved context accounted for, so a handled stop
      always restores it (see Demo.UpdateKeepsContextPending). */
  lemma HandleKeepsContextPending(cfg: D.Config, d: D.Demo, r: Request, robot: Robot)
    requires D.ContextPending(cfg, d)
    ensures D.ContextPending(cfg, Handle(d, r, robot).demo)
  {
  }
}

=== FILE: upf_filter.dfy ===
/**
 Life cycle of the unscented particle filter: init (initialRandomize and
 initializationUPF), the step counter with its terminal step, and solve.
 The unscented prediction and correction of each particle are numerical
 and enter the model as their result, the corrected poses; likewise the
 likelihood of each particle and the density scores of the terminal step.
 */
module Filter {
  import opened Common
  import opened Particles
  import opened Weights
  import opened Resampling

  /** The bookkeeping state of the filter: step counter t, the number of
      steps of the run, the population, the history x_most of most
      significant poses, and the pose estimate of the terminal step. */
  datatype Upf = Upf(
    t: nat,
    totalSteps: nat,
    particles: seq<Particle>,
    xMost: seq<seq<real>>,
    result: Option<seq<real>>)

  /** Initial search region: centre and radius of the position box. */
  datatype Region = Region(center: Vec3, radius: Vec3)

  /** Random draws of initialRandomize: six unit draws per particle. */
  predicate ValidInitDraws(n: nat, draws: seq<seq<real>>)
  {
    |draws| == n &&
    forall i :: 0 <= i < n ==>
      |draws[i]| == StateDim && forall k :: 0 <= k < StateDim ==> 0.0 <= draws[i][k] <= 1.0
  }

  /** The pose drawn for one particle: position inside the box centre +-
      radius, yaw and roll in [0, 2 pi], pitch in [0, pi]. */
  function InitialPose(region: Region, d: seq<real>): (pose: seq<real>)
    requires |d| == StateDim && forall k :: 0 <= k < StateDim ==> 0.0 <= d[k] <= 1.0
    ensures |pose| == StateDim
  {
    var c := region.center;
    var r := region.radius;
    [Uniform(c.x - r.x, c.x + r.x, d[0]),
     Uniform(c.y - r.y, c.y + r.y, d[1]),
     Uniform(c.z - r.z, c.z + r.z, d[2]),
     Uniform(0.0, 2.0 * Pi, d[3]),
     Uniform(0.0, Pi, d[4]),
     Uniform(0.0, 2.0 * Pi, d[5])]
  }

  /** The pose lies in the initial region: each position coordinate within
      |radius| of the centre, the angles in their ranges. */
  predicate InRegion(region: Region, pose: seq<real>)
  {
    |pose| == StateDim &&
    Abs(pose[0] - region.center.x) <= Abs(region.radius.x) &&
    Abs(pose[1] - region.center.y) <= Abs(region.radius.y) &&
    Abs(pose[2] - region.center.z) <= Abs(region.radius.z) &&
    0.0 <= pose[3] <= 2.0 * Pi &&
    0.0 <= pose[4] <= Pi &&
    0.0 <= pose[5] <= 2.0 * Pi
  }

  lemma InitialPoseInRegion(region: Region, d: seq<real>)
    requires |d| == StateDim && forall k :: 0 <= k < StateDim ==> 0.0 <= d[k] <= 1.0
    ensures InRegion(region, InitialPose(region, d))
  {
    var c := region.center;
    var r := region.radius;
    BoxDraw(c.x, r.x, d[0]);
    BoxDraw(c.y, r.y, d[1]);
    BoxDraw(c.z, r.z, d[2]);
  }

  /**
   init: step counter back to 0, N fresh particles each drawn in the
   initial region, of weight 1/N and with P_corr = P0 (its diagonal here).
   The history of most significant poses is not cleared.
   */
  function Init(s: Upf, n: nat, region: Region, p0Diag: seq<real>, draws: seq<seq<real>>): (s': Upf)
    requires n > 0
    requires |p0Diag| == StateDim
    requires ValidInitDraws(n, draws)
    ensures s'.t == 0 && s'.totalSteps == s.totalSteps && s'.xMost == s.xMost
    ensures |s'.particles| == n
    ensures forall i :: 0 <= i < n ==>
              WellFormed(s'.particles[i]) && InRegion(region, s'.particles[i].pose) &&
              s'.particles[i].covDiag == p0Diag
    ensures UniformWeights(s'.particles, 1.0 / n as real)
    ensures Sum(WeightsOf(s'.particles)) == 1.0
  {
    var particles := InitialParticles(n, region, p0Diag, draws);
    UniformPopulationSum(particles);
    Upf(0, s.totalSteps, particles, s.xMost, s.result)
  }

  /** initialRandomize and initializationUPF on N particles. */
  function InitialParticles(n: nat, region: Region, p0Diag: seq<real>, draws: seq<seq<real>>): (x: seq<Particle>)
    requires n > 0
    requires |p0Diag| == StateDim
    requires ValidInitDraws(n, draws)
    ensures |x| == n
    ensures forall i :: 0 <= i < n ==>
              WellFormed(x[i]) && InRegion(region, x[i].pose) && x[i].covDiag == p0Diag
    ensures UniformWeights(x, 1.0 / n as real)
  {
    var x := seq(n, i requires 0 <= i < n => Particle(InitialPose(region, draws[i]), 1.0 / n as real, p0Diag));
    forall i | 0 <= i < n
      ensures InRegion(region, x[i].pose)
    {
      InitialPoseInRegion(region, draws[i]);
    }
    x
  }

  /** What the numerical part of one step delivers and draws: the corrected
      pose of every particle, its likelihood under the window of
      measurements (an exponential, hence positive), the density score of
      every particle for the terminal estimate, and the random draws of
      resampling together with the covariance diagonal fresh particles carry. */
  datatype StepInput = StepInput(
    corrected: seq<seq<real>>,
    likelihood: seq<real>,
    densityScores: seq<real>,
    combDraw: real,
    jitterDraws: seq<seq<real>>,
    freshCov: seq<real>)

  predicate ValidInput(n: nat, input: StepInput)
  {
    |input.corrected| == n &&
    (forall i :: 0 <= i < n ==> |input.corrected[i]| == StateDim) &&
    |input.likelihood| == n &&
    (forall i :: 0 <= i < n ==> input.likelihood[i] > 0.0) &&
    |input.densityScores| == n &&
    ValidDraws(n, input.combDraw, input.jitterDraws) &&
    |input.freshCov| == StateDim
  }

  /** Positive numbers have a positive sum. */
  lemma {:induction false} SumPositive(s: seq<real>)
    requires |s| > 0
    requires forall i :: 0 <= i < |s| ==> s[i] > 0.0
    ensures Sum(s) > 0.0
  {
    var init := s[..|s| - 1];
    if |init| > 0 {
      SumPositive(init);
    }
  }

  /** The population after correction and re-weighting: corrected poses,
      normalised weights, covariances as they were. */
  function Corrected(x: seq<Particle>, corrected: seq<seq<real>>, w: seq<real>): (y: seq<Particle>)
    requires |corrected| == |x| && |w| == |x|
    ensures |y| == |x|
    ensures WeightsOf(y) == w
    ensures forall i :: 0 <= i < |x| ==> y[i].pose == corrected[i] && y[i].covDiag == x[i].covDiag
  {
    var y := seq(|x|, i requires 0 <= i < |x| => Particle(corrected[i], w[i], x[i].covDiag));
    assert forall i :: 0 <= i < |x| ==> WeightsOf(y)[i] == w[i];
    y
  }

  /** computeWeights and normalizeWeights keep every weight positive. */
  lemma ReweightPositive(w: seq<real>, likelihood: seq<real>)
    requires |w| == |likelihood| > 0
    requires forall i :: 0 <= i < |w| ==> w[i] > 0.0 && likelihood[i] > 0.0
    ensures Sum(Reweight(w, likelihood)) > 0.0
    ensures forall i :: 0 <= i < |w| ==> Normalize(Reweight(w, likelihood))[i] > 0.0
  {
    var r := Reweight(w, likelihood);
    assert forall i :: 0 <= i < |w| ==> r[i] > 0.0;
    SumPositive(r);
    var nr := Normalize(r);
    forall i | 0 <= i < |w|
      ensures nr[i] > 0.0
    {
      assert nr[i] * Sum(r) == r[i];
    }
  }

  /** The population after correction and re-weighting: the corrected
      poses, the old weights times the likelihoods normalised to sum to
      one, and the covariances as they were. */
  function Reweighed(x: seq<Particle>, input: StepInput): (y: seq<Particle>)
    requires ValidPopulation(x)
    requires ValidInput(|x|, input)
    ensures ValidPopulation(y) && |y| == |x|
    ensures forall i :: 0 <= i < |x| ==> y[i].pose == input.corrected[i] && y[i].covDiag == x[i].covDiag
    ensures Sum(Reweight(WeightsOf(x), input.likelihood)) > 0.0
    ensures WeightsOf(y) == Normalize(Reweight(WeightsOf(x), input.likelihood))
    ensures Sum(WeightsOf(y)) == 1.0
  {
    ReweightPositive(WeightsOf(x), input.likelihood);
    var y := Corrected(x, input.corrected, Normalize(Reweight(WeightsOf(x), input.likelihood)));
    assert forall i :: 0 <= i < |x| ==> y[i].weight == WeightsOf(y)[i];
    y
  }

  /** computeWeights followed by normalizeWeights over the corrected
      particles: the two loops compute Reweighed. */
  method Reweigh(x: seq<Particle>, input: StepInput) returns (y: seq<Particle>)
    requires ValidPopulation(x)
    requires ValidInput(|x|, input)
    ensures y == Reweighed(x, input)
  {
    ReweightPositive(WeightsOf(x), input.likelihood);
    var scaled, sum := ComputeWeights(WeightsOf(x), input.likelihood);
    var w, sumSquared := NormalizeWeights(scaled, sum);
    y := Corrected(x, input.corrected, w);
  }

  /** Non-terminal tail of step: record in x_most the pose of the last
      particle of largest weight, then resample (selectionStep). */
  method Select(s: Upf, y: seq<Particle>, input: StepInput) returns (s': Upf)
    requires ValidPopulation(y)
    requires Sum(WeightsOf(y)) == 1.0
    requires ValidInput(|y|, input)
    ensures s'.t == s.t && s'.totalSteps == s.totalSteps && s'.result == s.result
    ensures |s'.xMost| == |s.xMost| + 1 && s'.xMost[..|s.xMost|] == s.xMost
    ensures exists m: nat :: LastMax(WeightsOf(y), m) && s'.xMost[|s.xMost|] == y[m].pose
    ensures ResampledFrom(y, input.combDraw, input.jitterDraws, input.freshCov, s'.particles)
    ensures ValidPopulation(s'.particles) && |s'.particles| == |y|
    ensures UniformWeights(s'.particles, 1.0 / |y| as real)
    ensures Sum(WeightsOf(s'.particles)) == 1.0
  {
    var most := MostSignificantIndex(WeightsOf(y));
    var newX, parents := Resample(y, input.combDraw, input.jitterDraws, input.freshCov);
    var xMost := s.xMost + [y[most].pose];
    assert xMost[..|s.xMost|] == s.xMost;
    s' := s.(particles := newX, xMost := xMost);
  }

  /**
   One call of step. The counter always advances. Past the last step the
   call reports that the run is finished and changes nothing else. Otherwise
   the particles take their corrected poses and re-normalised weights; on
   the terminal step the densest particle's pose becomes the result and
   nothing is resampled, on every other step the most significant pose is
   appended to x_most and the population is resampled.
   */
  method Step(s: Upf, input: StepInput) returns (s': Upf, finished: bool)
    requires ValidPopulation(s.particles)
    requires ValidInput(|s.particles|, input)
    ensures s'.t == s.t + 1 && s'.totalSteps == s.totalSteps
    ensures finished <==> s.t + 1 > s.totalSteps
    ensures finished ==> s'.particles == s.particles && s'.xMost == s.xMost && s'.result == s.result
    ensures ValidPopulation(s'.particles) && |s'.particles| == |s.particles|
    ensures !finished ==> Sum(WeightsOf(s'.particles)) == 1.0
    ensures s.t + 1 == s.totalSteps ==>
              s'.xMost == s.xMost &&
              s'.particles == Reweighed(s.particles, input) &&
              exists b: nat :: FirstMaxOrZero(input.densityScores, b) && s'.result == Some(input.corrected[b])
    ensures s.t + 1 < s.totalSteps ==>
              var y := Reweighed(s.particles, input);
              |s'.xMost| == |s.xMost| + 1 && s'.xMost[..|s.xMost|] == s.xMost &&
              (exists m: nat :: LastMax(WeightsOf(y), m) && s'.xMost[|s.xMost|] == input.corrected[m]) &&
              ResampledFrom(y, input.combDraw, input.jitterDraws, input.freshCov, s'.particles) &&
              UniformWeights(s'.particles, 1.0 / |s.particles| as real) &&
              s'.result == s.result
  {
    var t := s.t + 1;
    if t > s.totalSteps {
      return s.(t := t), true;
    }
    var y := Reweigh(s.particles, input);
    if t == s.totalSteps {
      var best := DensestParticle(input.densityScores);
      assert y[best].pose == input.corrected[best];
      return s.(t := t, particles := y, result := Some(y[best].pose)), false;
    }
    s' := Select(s.(t := t), y, input);
    finished := false;
  }

  /** Steps a run starting at counter t still takes before step reports that
      it is finished, counting that final call. */
  function CallsToFinish(t: nat, totalSteps: nat): nat
  {
    if t >= totalSteps then 1 else totalSteps - t + 1
  }

  /** Number of resampling steps among counters t0 + 1 .. t1: those below
      the terminal step. */
  function Resampled(t0: nat, t1: nat, totalSteps: nat): nat
  {
    var hi := if t1 < totalSteps then t1 else totalSteps - 1;
    if hi > t0 then hi - t0 else 0
  }

  /**
   solve: call step until it reports that the run is finished, feeding each
   call its numerical inputs in turn. The run ends one past the last step;
   x_most has grown by one pose for every non-terminal step taken, and a run
   that reached its terminal step holds a result.
   */
  method Solve(s: Upf, inputs: seq<StepInput>) returns (s': Upf)
    requires ValidPopulation(s.particles)
    requires |inputs| >= CallsToFinish(s.t, s.totalSteps)
    requires forall k :: 0 <= k < |inputs| ==> ValidInput(|s.particles|, inputs[k])
    ensures s'.t == (if s.t >= s.totalSteps then s.t + 1 else s.totalSteps + 1)
    ensures |s'.xMost| == |s.xMost| + Resampled(s.t, s.totalSteps, s.totalSteps)
    ensures s.t < s.totalSteps ==> s'.result.Some?
    ensures |s'.particles| == |s.particles|
  {
    s' := s;
    var finished := false;
    var k := 0;
    while !finished
      invariant 0 <= k <= CallsToFinish(s.t, s.totalSteps)
      invariant s'.t == s.t + k && s'.totalSteps == s.totalSteps
      invariant ValidPopulation(s'.particles) && |s'.particles| == |s.particles|
      invariant k == 0 ==> !finished
      invariant k > 0 ==> (finished <==> s'.t > s.totalSteps)
      invariant !finished ==> k < CallsToFinish(s.t, s.totalSteps)
      invariant |s'.xMost| == |s.xMost| + Resampled(s.t, s'.t, s.totalSteps)
      invariant s.t < s.totalSteps && s'.t >= s.totalSteps ==> s'.result.Some?
      decreases CallsToFinish(s.t, s.totalSteps) - k
    {
      s', finished := Step(s', inputs[k]);
      k := k + 1;
    }
  }
}

=== FILE: upf_particle.dfy ===
/**
 The particle of the unscented particle filter as far as its bookkeeping
 is concerned: the corrected pose x_corr (x, y, z and three Euler angles),
 its weight and the diagonal of its corrected covariance P_corr. The
 sigma-point matrices and the Kalman quantities are numerical internals
 and are not part of this model. Random draws are passed in as numbers in
 [0, 1] and mapped onto their interval the way a uniform generator does.
 */
module Particles {
  import opened Common

  /** Dimension of the pose state (x, y, z, yaw, pitch, roll). */
  const StateDim: nat := 6

  /** The value of M_PI. */
  const Pi: real := 3.14159265358979323846

  datatype Particle = Particle(pose: seq<real>, weight: real, covDiag: seq<real>)

  /** A particle with a full pose and a full covariance diagonal. */
  predicate WellFormed(p: Particle)
  {
    |p.pose| == StateDim && |p.covDiag| == StateDim
  }

  /** Rand::scalar(lo, hi) given the unit draw d: the point at fraction d of
      the way from lo to hi. */
  function Uniform(lo: real, hi: real, d: real): (v: real)
    requires 0.0 <= d <= 1.0
    ensures lo <= hi ==> lo <= v <= hi
    ensures hi <= lo ==> hi <= v <= lo
    ensures d == 0.0 ==> v == lo
    ensures d == 1.0 ==> v == hi
  {
    var s := d * (hi - lo);
    Fraction(d, hi - lo, s);
    lo + s
  }

  /** A fraction d in [0, 1] of a signed length w lies between 0 and w. */
  lemma Fraction(d: real, w: real, s: real)
    requires 0.0 <= d <= 1.0 && s == d * w
    ensures w >= 0.0 ==> 0.0 <= s <= w
    ensures w <= 0.0 ==> w <= s <= 0.0
    ensures d == 0.0 ==> s == 0.0
    ensures d == 1.0 ==> s == w
  {
    if w >= 0.0 {
      assert w - s == (1.0 - d) * w;
    } else {
      assert s - w == (1.0 - d) * -w;
      assert -s == d * -w;
    }
  }

  /** A draw from [c - s, c + s] stays within |s| of c, whatever the sign
      of s. */
  lemma BoxDraw(c: real, s: real, d: real)
    requires 0.0 <= d <= 1.0
    ensures -Abs(s) <= Uniform(c - s, c + s, d) - c <= Abs(s)
  {
  }

  /** Weights of a population, in order. */
  function WeightsOf(x: seq<Particle>): (w: seq<real>)
    ensures |w| == |x|
    ensures forall i :: 0 <= i < |x| ==> w[i] == x[i].weight
  {
    if |x| == 0 then [] else WeightsOf(x[..|x| - 1]) + [x[|x| - 1].weight]
  }

  /** Every particle has the same weight. */
  predicate UniformWeights(x: seq<Particle>, w: real)
  {
    forall i :: 0 <= i < |x| ==> x[i].weight == w
  }

  /** A population the step can work on: non-empty, well-formed particles,
      every weight positive. */
  predicate ValidPopulation(x: seq<Particle>)
  {
    |x| > 0 &&
    (forall i :: 0 <= i < |x| ==> WellFormed(x[i])) &&
    (forall i :: 0 <= i < |x| ==> x[i].weight > 0.0)
  }
}

=== FILE: upf_reader.dfy ===
/**
 The measurement reader of the filter (readMeasurements): a three-phase
 state machine over the lines of an OFF point file. It skips lines until
 one whose first item, upper-cased, reads OFF; takes the first numeric
 line after it as the point count; then appends one point per numeric
 line with at least three items, lowering the count by the downsampling
 step each time, and reports success as soon as the count is used up.
 Each line is given already split into its Bottle items.
 */
module Reader {
  import opened Common

  /** One line of the file as the Bottle parser splits it. */
  type Line = seq<Value>

  /** The header line: first item, upper-cased, is "OFF". */
  predicate IsHeader(line: Line)
  {
    ToUpper(AsString(Get(line, 0))) == "OFF"
  }

  /** A line whose first item is a number. */
  predicate IsNumber(line: Line)
  {
    Get(line, 0).VInt? || Get(line, 0).VDouble?
  }

  /** A line that yields a point. */
  predicate IsPointLine(line: Line)
  {
    IsNumber(line) && |line| >= 3
  }

  function PointOf(line: Line): Vec3
  {
    Vec3(AsDouble(Get(line, 0)), AsDouble(Get(line, 1)), AsDouble(Get(line, 2)))
  }

  /** Reader phases: looking for the header, for the count, and reading
      points with the count still to go. */
  datatype Phase = Header | Count | Data(remaining: int)

  /** Whether the count was used up, and the points appended. */
  datatype Outcome = Outcome(complete: bool, points: seq<Vec3>)

  /** The state machine run over the lines from the given phase. */
  function Run(phase: Phase, lines: seq<Line>, downsampling: int): Outcome
    decreases |lines|
  {
    if |lines| == 0 then Outcome(false, [])
    else
      var line := lines[0];
      match phase
      case Header => Run(if IsHeader(line) then Count else Header, lines[1..], downsampling)
      case Count => Run(if IsNumber(line) then Data(AsInt(Get(line, 0))) else Count, lines[1..], downsampling)
      case Data(rem) =>
        if !IsPointLine(line) then Run(phase, lines[1..], downsampling)
        else if rem - downsampling <= 0 then Outcome(true, [PointOf(line)])
        else
          var rest := Run(Data(rem - downsampling), lines[1..], downsampling);
          Outcome(rest.complete, [PointOf(line)] + rest.points)
  }

  /** The phase encoded by readMeasurements' state number and point count. */
  function PhaseOf(state: int, nPoints: int): Phase
  {
    if state == 0 then Header else if state == 1 then Count else Data(nPoints)
  }

  /** An outcome preceded by points already appended. */
  function After(got: seq<Vec3>, o: Outcome): Outcome
  {
    Outcome(o.complete, got + o.points)
  }

  /**
   readMeasurements as it loops over the file. The points are
   appended to the measurements already held, while numMeas restarts from
   zero and counts only the points of this call.
   */
  method ReadMeasurements(lines: seq<Line>, downsampling: int, held: seq<Vec3>)
    returns (ok: bool, measurements: seq<Vec3>, numMeas: nat)
    ensures |measurements| >= |held| && measurements[..|held|] == held
    ensures numMeas == |measurements| - |held|
    ensures Outcome(ok, measurements[|held|..]) == Run(Header, lines, downsampling)
    ensures Outcome(ok, measurements[|held|..]) == Reference(lines, downsampling)
  {
    var state := 0;
    var nPoints := 0;
    var got: seq<Vec3> := [];
    var k := 0;
    ok := false;
    while k < |lines| && !ok
      invariant 0 <= k <= |lines|
      invariant 0 <= state <= 2
      invariant !ok ==> Run(Header, lines, downsampling) == After(got, Run(PhaseOf(state, nPoints), lines[k..], downsampling))
      invariant ok ==> Run(Header, lines, downsampling) == Outcome(true, got)
    {
      var line := lines[k];
      ghost var phase := PhaseOf(state, nPoints);
      assert lines[k..][1..] == lines[k + 1..];
      assert Run(phase, lines[k..], downsampling) == RunLine(phase, line, lines[k + 1..], downsampling);
      if state == 0 {
        if IsHeader(line) {
          state := state + 1;
        }
      } else if state == 1 {
        if IsNumber(line) {
          nPoints := AsInt(Get(line, 0));
          state := state + 1;
        }
      } else if IsPointLine(line) {
        ghost var rest := Run(Data(nPoints - downsampling), lines[k + 1..], downsampling);
        assert got + ([PointOf(line)] + rest.points) == (got + [PointOf(line)]) + rest.points;
        got := got + [PointOf(line)];
        nPoints := nPoints - downsampling;
        if nPoints <= 0 {
          ok := true;
        }
      }
      k := k + 1;
    }
    measurements := held + got;
    numMeas := |got|;
    assert measurements[..|held|] == held && measurements[|held|..] == got;
    ReaderMatchesReference(lines, downsampling);
  }

  /** One line of the state machine, then the rest of the file. */
  function RunLine(phase: Phase, line: Line, rest: seq<Line>, downsampling: int): (o: Outcome)
    ensures o == Run(phase, [line] + rest, downsampling)
  {
    assert ([line] + rest)[1..] == rest;
    match phase
    case Header => Run(if IsHeader(line) then Count else Header, rest, downsampling)
    case Count => Run(if IsNumber(line) then Data(AsInt(Get(line, 0))) else Count, rest, downsampling)
    case Data(rem) =>
      if !IsPointLine(line) then Run(phase, rest, downsampling)
      else if rem - downsampling <= 0 then Outcome(true, [PointOf(line)])
      else
        var r := Run(Data(rem - downsampling), rest, downsampling);
        Outcome(r.complete, [PointOf(line)] + r.points)
  }

  /** Index of the first line with property p, if any. */
  function FindFirst(p: Line -> bool, lines: seq<Line>): (r: Option<nat>)
    ensures r.Some? ==> r.value < |lines| && p(lines[r.value]) &&
                        forall k :: 0 <= k < r.value ==> !p(lines[k])
    ensures r.None? ==> forall k :: 0 <= k < |lines| ==> !p(lines[k])
  {
    if |lines| == 0 then None
    else if p(lines[0]) then Some(0)
    else match FindFirst(p, lines[1..])
      case None => None
      case Some(i) => Some(i + 1)
  }

  /** The points of the point lines, in file order. */
  function DataPoints(lines: seq<Line>): (pts: seq<Vec3>)
    ensures |pts| <= |lines|
  {
    if |lines| == 0 then []
    else if IsPointLine(lines[0]) then [PointOf(lines[0])] + DataPoints(lines[1..])
    else DataPoints(lines[1..])
  }

  /** How many points it takes to bring the count to zero or below when
      each point lowers it by the downsampling step: one when the count is
      within a single step, ceil(count / step) for a positive step, and
      never otherwise. */
  function PointsNeeded(count: int, downsampling: int): (k: Option<nat>)
    ensures k.Some? ==> k.value >= 1 && count - k.value * downsampling <= 0
    ensures k.Some? && k.value > 1 ==> count - (k.value - 1) * downsampling > 0
    ensures k.None? ==> downsampling <= 0 && count > downsampling
  {
    if count <= downsampling then Some(1)
    else if downsampling > 0 then
      var k := (count + downsampling - 1) / downsampling;
      CeilDiv(count, downsampling);
      Some(k)
    else None
  }

  lemma CeilDiv(count: int, d: int)
    requires d > 0 && count > d
    ensures (count + d - 1) / d >= 2
    ensures count - ((count + d - 1) / d) * d <= 0
    ensures count - ((count + d - 1) / d - 1) * d > 0
  {
    var q := (count + d - 1) / d;
    var r := (count + d - 1) % d;
    assert count + d - 1 == q * d + r;
    assert 0 <= r < d;
    assert q * d > count - 1;
    assert (q - 1) * d == q * d - d;
    assert q * d - d <= count - 1;
  }

  /**
   The reader, stated without the machine: the header is the first line
   reading OFF, the count is the first numeric line after it, and the points
   are the first PointsNeeded(count, step) point lines after that. If the
   file ends before that many point lines, all point lines after the count
   are appended and the call fails.
   */
  function Reference(lines: seq<Line>, downsampling: int): Outcome
  {
    match FindFirst(IsHeader, lines)
    case None => Outcome(false, [])
    case Some(h) =>
      var afterHeader := lines[h + 1..];
      match FindFirst(IsNumber, afterHeader)
      case None => Outcome(false, [])
      case Some(c) =>
        var data := DataPoints(afterHeader[c + 1..]);
        match PointsNeeded(AsInt(Get(afterHeader[c], 0)), downsampling)
        case Some(k) => if k <= |data| then Outcome(true, data[..k]) else Outcome(false, data)
        case None => Outcome(false, data)
  }

  /** The state machine and the reference agree on every file. */
  lemma ReaderMatchesReference(lines: seq<Line>, downsampling: int)
    ensures Run(Header, lines, downsampling) == Reference(lines, downsampling)
  {
    HeaderPhase(lines, downsampling);
    match FindFirst(IsHeader, lines)
    case None =>
    case Some(h) =>
      var afterHeader := lines[h + 1..];
      CountPhase(afterHeader, downsampling);
      match FindFirst(IsNumber, afterHeader)
      case None =>
      case Some(c) =>
        var count := AsInt(Get(afterHeader[c], 0));
        DataPhase(count, afterHeader[c + 1..], downsampling);
        DrainMatchesNeeded(count, DataPoints(afterHeader[c + 1..]), downsampling);
  }

  lemma {:induction false} HeaderPhase(lines: seq<Line>, d: int)
    ensures Run(Header, lines, d) ==
              match FindFirst(IsHeader, lines)
              case None => Outcome(false, [])
              case Some(h) => Run(Count, lines[h + 1..], d)
    decreases |lines|
  {
    if |lines| > 0 && !IsHeader(lines[0]) {
      HeaderPhase(lines[1..], d);
      match FindFirst(IsHeader, lines[1..])
      case None =>
      case Some(h) => assert lines[1..][h + 1..] == lines[h + 2..];
    }
  }

  lemma {:induction false} CountPhase(lines: seq<Line>, d: int)
    ensures Run(Count, lines, d) ==
              match FindFirst(IsNumber, lines)
              case None => Outcome(false, [])
              case Some(c) => Run(Data(AsInt(Get(lines[c], 0))), lines[c + 1..], d)
    decreases |lines|
  {
    if |lines| > 0 && !IsNumber(lines[0]) {
      CountPhase(lines[1..], d);
      match FindFirst(IsNumber, lines[1..])
      case None =>
      case Some(c) => assert lines[1..][c + 1..] == lines[c + 2..];
    }
  }

  /** The data phase over the point lines alone. */
  function Drain(rem: int, pts: seq<Vec3>, d: int): Outcome
    decreases |pts|
  {
    if |pts| == 0 then Outcome(false, [])
    else if rem - d <= 0 then Outcome(true, [pts[0]])
    else
      var rest := Drain(rem - d, pts[1..], d);
      Outcome(rest.complete, [pts[0]] + rest.points)
  }

  lemma {:induction false} DataPhase(rem: int, lines: seq<Line>, d: int)
    ensures Run(Data(rem), lines, d) == Drain(rem, DataPoints(lines), d)
    decreases |lines|
  {
    if |lines| > 0 {
      if IsPointLine(lines[0]) {
        DataPhase(rem - d, lines[1..], d);
        assert DataPoints(lines)[1..] == DataPoints(lines[1..]);
      } else {
        DataPhase(rem, lines[1..], d);
      }
    }
  }

  lemma {:induction false} DrainMatchesNeeded(rem: int, pts: seq<Vec3>, d: int)
    ensures Drain(rem, pts, d) ==
              match PointsNeeded(rem, d)
              case Some(k) => if k <= |pts| then Outcome(true, pts[..k]) else Outcome(false, pts)
              case None => Outcome(false, pts)
    decreases |pts|
  {
    if |pts| > 0 && rem - d > 0 {
      DrainMatchesNeeded(rem - d, pts[1..], d);
      if d > 0 {
        NeededStep(rem, d);
        var k := PointsNeeded(rem, d).value;
        if k <= |pts| {
          assert [pts[0]] + pts[1..][..k - 1] == pts[..k];
        } else {
          assert [pts[0]] + pts[1..] == pts;
        }
      } else {
        assert [pts[0]] + pts[1..] == pts;
      }
    } else if |pts| > 0 {
      assert pts[..1] == [pts[0]];
    }
  }

  /** After one point of a positive step the remaining need drops by one. */
  lemma NeededStep(rem: int, d: int)
    requires d > 0 && rem > d
    ensures PointsNeeded(rem, d).Some? && PointsNeeded(rem - d, d).Some?
    ensures PointsNeeded(rem - d, d).value == PointsNeeded(rem, d).value - 1
  {
    CeilDiv(rem, d);
    var k := (rem + d - 1) / d;
    assert PointsNeeded(rem, d) == Some(k);
    assert (k - 1) * d == k * d - d;
    assert (k - 2) * d == (k - 1) * d - d;
    if rem - d <= d {
      MulLess(k - 1, 2, d);
    } else {
      CeilChar(rem - d, d, k - 1);
    }
  }

  lemma MulLess(a: int, b: int, c: int)
    requires c > 0 && a * c < b * c
    ensures a < b
  {
    if a >= b {
      MulMono(b, a, c);
    }
  }

  /** A step of one reads exactly the announced number of points when it
      is positive, and a single point otherwise. */
  lemma UnitStepReadsCount(count: int)
    ensures PointsNeeded(count, 1) == Some(if count <= 1 then 1 else count)
  {
  }
}

=== FILE: upf_resampling.dfy ===
/**
 Systematic resampling (resampling) and the two arg-max scans of the
 filter: the most significant particle recorded after every non-terminal
 step (findMostSignificantParticle) and the densest particle chosen on the
 terminal step (particleDensity3, whose scores are taken as given).
 */
module Resampling {
  import opened Common
  import opened Particles

  /** Cumulative weights: c[i] is the total weight of particles 0..i. */
  function Cumulative(w: seq<real>): (c: seq<real>)
    ensures |c| == |w|
  {
    seq(|w|, i requires 0 <= i < |w| => Sum(w[..i + 1]))
  }

  /** The closed form agrees with the running sum of resampling:
      c[0] = w[0] and c[i] = c[i-1] + w[i]. */
  lemma CumulativeFirst(w: seq<real>)
    requires |w| > 0
    ensures Cumulative(w)[0] == w[0]
  {
    assert w[..1] == [] + [w[0]];
    SumAppend([], w[0]);
  }

  /** The last cumulative weight is the total weight. */
  lemma CumulativeLast(w: seq<real>)
    requires |w| > 0
    ensures Cumulative(w)[|w| - 1] == Sum(w)
  {
    assert w[..|w|] == w;
  }

  /** With non-negative weights the cumulative weights never decrease. */
  lemma CumulativeMonotone(w: seq<real>, i: nat, j: nat)
    requires forall k :: 0 <= k < |w| ==> w[k] >= 0.0
    requires i <= j < |w|
    ensures Cumulative(w)[i] <= Cumulative(w)[j]
  {
    var a := w[..i + 1];
    var b := w[i + 1..j + 1];
    assert w[..j + 1] == a + b;
    SumConcat(a, b);
    SumNonNegative(b);
  }

  lemma {:induction false} SumConcat(a: seq<real>, b: seq<real>)
    ensures Sum(a + b) == Sum(a) + Sum(b)
    decreases |b|
  {
    if |b| == 0 {
      assert a + b == a;
    } else {
      var b' := b[..|b| - 1];
      SumConcat(a, b');
      assert (a + b)[..|a + b| - 1] == a + b';
    }
  }

  /** Consecutive cumulative weights differ by the weight in between. */
  lemma CumulativeStep(w: seq<real>, i: nat)
    requires 0 < i < |w|
    ensures Cumulative(w)[i] == Cumulative(w)[i - 1] + w[i]
  {
    assert w[..i + 1][..i] == w[..i];
  }

  /** Position of draw j of the systematic comb: u_j = u_0 + j/N. */
  function Comb(u0: real, j: nat, n: nat): real
    requires n > 0
  {
    u0 + 1.0 / n as real * j as real
  }

  /** The comb never reaches past 1 when u_0 <= 1/N. */
  lemma CombBelowOne(u0: real, j: nat, n: nat)
    requires n > 0 && j < n
    requires u0 <= 1.0 / n as real
    ensures Comb(u0, j, n) <= 1.0
  {
    var step := 1.0 / n as real;
    assert step * n as real == 1.0;
    assert step * (j + 1) as real <= step * n as real;
  }

  /** The comb is strictly increasing. */
  lemma CombIncreasing(u0: real, j: nat, k: nat, n: nat)
    requires n > 0 && j < k
    ensures Comb(u0, j, n) < Comb(u0, k, n)
  {
    var step := 1.0 / n as real;
    assert step > 0.0;
    assert step * j as real < step * k as real;
  }

  /** i is the first index whose cumulative weight reaches u. */
  predicate FirstReaching(c: seq<real>, u: real, i: nat)
  {
    i < |c| && u <= c[i] && forall k :: 0 <= k < i ==> c[k] < u
  }

  /**
   The parent selection of resampling: one index walks the cumulative
   weights and is never moved back; draw j takes the first particle whose
   cumulative weight reaches u_j. The weights must sum to one, otherwise the
   walk would run off the end of the population.
   */
  method SelectParents(w: seq<real>, u0: real) returns (parents: seq<nat>)
    requires |w| > 0
    requires Sum(w) == 1.0
    requires u0 <= 1.0 / |w| as real
    ensures |parents| == |w|
    ensures forall j :: 0 <= j < |w| ==> FirstReaching(Cumulative(w), Comb(u0, j, |w|), parents[j])
    ensures forall j, k :: 0 <= j <= k < |w| ==> parents[j] <= parents[k]
  {
    var n := |w|;
    var c := Cumulative(w);
    CumulativeLast(w);
    parents := [];
    var i := 0;
    var j := 0;
    while j < n
      invariant 0 <= j <= n
      invariant 0 <= i < n
      invariant j == 0 ==> i == 0
      invariant |parents| == j
      invariant forall m :: 0 <= m < j ==> FirstReaching(c, Comb(u0, m, n), parents[m])
      invariant forall m :: 0 <= m < j ==> parents[m] <= i
      invariant forall m, l :: 0 <= m <= l < j ==> parents[m] <= parents[l]
      invariant j > 0 ==> forall k :: 0 <= k < i ==> c[k] < Comb(u0, j - 1, n)
    {
      var u := Comb(u0, j, n);
      CombBelowOne(u0, j, n);
      if j > 0 {
        CombIncreasing(u0, j - 1, j, n);
      }
      assert forall k :: 0 <= k < i ==> c[k] < u;
      i := Advance(c, u, i);
      parents := parents + [i];
      j := j + 1;
    }
  }

  /** The inner loop of resampling: move the index forward to the first
      cumulative weight that reaches u. */
  method Advance(c: seq<real>, u: real, i0: nat) returns (i: nat)
    requires i0 < |c| && u <= c[|c| - 1]
    requires forall k :: 0 <= k < i0 ==> c[k] < u
    ensures i0 <= i && FirstReaching(c, u, i)
  {
    i := i0;
    while u > c[i]
      invariant i0 <= i < |c|
      invariant forall k :: 0 <= k < i ==> c[k] < u
      decreases |c| - i
    {
      i := i + 1;
    }
  }

  /** A particle other than the first is chosen only if its weight is
      positive: a zero-weight particle adds nothing to the cumulative sum, so
      no comb point can fall on it. */
  lemma ZeroWeightNeverParent(w: seq<real>, u: real, i: nat)
    requires FirstReaching(Cumulative(w), u, i)
    requires i > 0
    ensures w[i] > 0.0
  {
    CumulativeStep(w, i);
  }

  /** child's pose lies, coordinate by coordinate, within |P_corr(k,k)| of
      its parent's pose. */
  predicate WithinBox(parent: Particle, child: Particle)
  {
    WellFormed(parent) && |child.pose| == StateDim &&
    forall k :: 0 <= k < StateDim ==>
      -Abs(parent.covDiag[k]) <= child.pose[k] - parent.pose[k] <= Abs(parent.covDiag[k])
  }

  /** The resampled particle: the parent's pose shaken coordinate by
      coordinate inside the box x[k] +- P_corr(k,k), weight 1/N, and the
      covariance diagonal the fresh particle carries. */
  function Jitter(parent: Particle, draws: seq<real>, n: nat, freshCov: seq<real>): (q: Particle)
    requires WellFormed(parent)
    requires n > 0
    requires |draws| == StateDim
    requires forall k :: 0 <= k < StateDim ==> 0.0 <= draws[k] <= 1.0
    ensures WithinBox(parent, q)
    ensures q.weight == 1.0 / n as real
  {
    var pose := seq(StateDim, k requires 0 <= k < StateDim =>
                      Uniform(parent.pose[k] - parent.covDiag[k], parent.pose[k] + parent.covDiag[k], draws[k]));
    forall k | 0 <= k < StateDim
      ensures -Abs(parent.covDiag[k]) <= pose[k] - parent.pose[k] <= Abs(parent.covDiag[k])
    {
      BoxDraw(parent.pose[k], parent.covDiag[k], draws[k]);
    }
    Particle(pose, 1.0 / n as real, freshCov)
  }

  /** Draws of one resampling: u_0 as a unit draw (u_0 = draw / N) and six
      unit draws per new particle. */
  predicate ValidDraws(n: nat, combDraw: real, jitterDraws: seq<seq<real>>)
  {
    0.0 <= combDraw <= 1.0 &&
    |jitterDraws| == n &&
    forall j :: 0 <= j < n ==>
      |jitterDraws[j]| == StateDim &&
      forall k :: 0 <= k < StateDim ==> 0.0 <= jitterDraws[j][k] <= 1.0
  }

  lemma CombStartBound(combDraw: real, n: nat)
    requires 0.0 <= combDraw <= 1.0 && n > 0
    ensures combDraw / n as real <= 1.0 / n as real
  {
    var q := combDraw / n as real;
    var r := 1.0 / n as real;
    assert q * n as real == combDraw;
    assert r * n as real == 1.0;
    assert (r - q) * n as real == 1.0 - combDraw;
  }

  /** The new population: particle j is a jittered copy of its parent. */
  function JitterAll(x: seq<Particle>, parents: seq<nat>, jitterDraws: seq<seq<real>>, freshCov: seq<real>): (newX: seq<Particle>)
    requires |x| > 0
    requires forall i :: 0 <= i < |x| ==> WellFormed(x[i])
    requires |parents| == |x| && forall j :: 0 <= j < |x| ==> parents[j] < |x|
    requires ValidDraws(|x|, 0.0, jitterDraws)
    requires |freshCov| == StateDim
    ensures |newX| == |x|
    ensures forall j :: 0 <= j < |x| ==> WellFormed(newX[j]) && newX[j].covDiag == freshCov
    ensures forall j :: 0 <= j < |x| ==> WithinBox(x[parents[j]], newX[j])
    ensures UniformWeights(newX, 1.0 / |x| as real)
    ensures ValidPopulation(newX)
  {
    var n := |x| as real;
    assert 1.0 / n > 0.0;
    seq(|x|, j requires 0 <= j < |x| => Jitter(x[parents[j]], jitterDraws[j], |x|, freshCov))
  }

  /** N copies of 1/N sum to one. */
  lemma UniformPopulationSum(x: seq<Particle>)
    requires |x| > 0
    requires UniformWeights(x, 1.0 / |x| as real)
    ensures Sum(WeightsOf(x)) == 1.0
  {
    var u := 1.0 / |x| as real;
    var w := WeightsOf(x);
    assert forall i :: 0 <= i < |w| ==> w[i] == u;
    UniformSum(w, u);
  }

  /** k copies of 1/k sum to one. */
  lemma UniformSum(w: seq<real>, u: real)
    requires |w| > 0 && u == 1.0 / |w| as real
    requires forall i :: 0 <= i < |w| ==> w[i] == u
    ensures Sum(w) == 1.0
  {
    SumConstant(w, u);
    UnitShare(|w|, u);
  }

  lemma UnitShare(k: nat, u: real)
    requires k > 0 && u == 1.0 / k as real
    ensures k as real * u == 1.0
  {
  }

  /**
   resampling followed by the covariance reset of selectionStep: a new
   population of exactly N particles, all of weight 1/N, each a jittered
   copy of its parent. Returns the parents too.
   */
  method Resample(x: seq<Particle>, combDraw: real, jitterDraws: seq<seq<real>>, freshCov: seq<real>)
    returns (newX: seq<Particle>, parents: seq<nat>)
    requires |x| > 0
    requires forall i :: 0 <= i < |x| ==> WellFormed(x[i])
    requires Sum(WeightsOf(x)) == 1.0
    requires ValidDraws(|x|, combDraw, jitterDraws)
    requires |freshCov| == StateDim
    ensures |newX| == |x| && |parents| == |x|
    ensures forall j :: 0 <= j < |x| ==> parents[j] < |x|
    ensures forall j :: 0 <= j < |x| ==>
              FirstReaching(Cumulative(WeightsOf(x)), Comb(combDraw / |x| as real, j, |x|), parents[j])
    ensures forall j, k :: 0 <= j <= k < |x| ==> parents[j] <= parents[k]
    ensures newX == JitterAll(x, parents, jitterDraws, freshCov)
    ensures ResampledFrom(x, combDraw, jitterDraws, freshCov, newX)
    ensures ValidPopulation(newX)
    ensures Sum(WeightsOf(newX)) == 1.0
  {
    var n := |x|;
    CombStartBound(combDraw, n);
    parents := SelectParents(WeightsOf(x), combDraw / n as real);
    newX := JitterAll(x, parents, jitterDraws, freshCov);
    UniformPopulationSum(newX);
  }

  /** parents[j] is the first particle whose cumulative weight reaches
      comb point j, for every j. */
  predicate CombParents(w: seq<real>, combDraw: real, parents: seq<nat>)
    requires |w| > 0
  {
    |parents| == |w| &&
    (forall j :: 0 <= j < |w| ==> parents[j] < |w|) &&
    forall j :: 0 <= j < |w| ==>
      FirstReaching(Cumulative(w), Comb(combDraw / |w| as real, j, |w|), parents[j])
  }

  /** Resample's result: a population whose particle j is the jittered
      copy of the first particle whose cumulative weight reaches comb point
      j. */
  ghost predicate ResampledFrom(x: seq<Particle>, combDraw: real, jitterDraws: seq<seq<real>>,
                                freshCov: seq<real>, newX: seq<Particle>)
    requires |x| > 0
    requires forall i :: 0 <= i < |x| ==> WellFormed(x[i])
    requires ValidDraws(|x|, combDraw, jitterDraws)
    requires |freshCov| == StateDim
  {
    exists parents: seq<nat> ::
      CombParents(WeightsOf(x), combDraw, parents) && newX == JitterAll(x, parents, jitterDraws, freshCov)
  }

  /** The first index reaching a point is unique. */
  lemma FirstReachingUnique(c: seq<real>, u: real, i: nat, k: nat)
    requires FirstReaching(c, u, i) && FirstReaching(c, u, k)
    ensures i == k
  {
  }

  /** The comb fixes the parents. */
  lemma CombParentsUnique(w: seq<real>, combDraw: real, pa: seq<nat>, pb: seq<nat>)
    requires |w| > 0
    requires CombParents(w, combDraw, pa) && CombParents(w, combDraw, pb)
    ensures pa == pb
  {
    var n := |w|;
    forall j | 0 <= j < n
      ensures pa[j] == pb[j]
    {
      FirstReachingUnique(Cumulative(w), Comb(combDraw / n as real, j, n), pa[j], pb[j]);
    }
  }

  /** The draws fix the resampled population: two populations resampled
      from the same particles with the same draws are equal. */
  lemma ResampledUnique(x: seq<Particle>, combDraw: real, jitterDraws: seq<seq<real>>,
                        freshCov: seq<real>, a: seq<Particle>, b: seq<Particle>)
    requires |x| > 0
    requires forall i :: 0 <= i < |x| ==> WellFormed(x[i])
    requires ValidDraws(|x|, combDraw, jitterDraws)
    requires |freshCov| == StateDim
    ensures (ResampledFrom(x, combDraw, jitterDraws, freshCov, a) &&
             ResampledFrom(x, combDraw, jitterDraws, freshCov, b)) ==> a == b
  {
    if ResampledFrom(x, combDraw, jitterDraws, freshCov, a) && ResampledFrom(x, combDraw, jitterDraws, freshCov, b) {
      var pa: seq<nat> :| CombParents(WeightsOf(x), combDraw, pa) && a == JitterAll(x, pa, jitterDraws, freshCov);
      var pb: seq<nat> :| CombParents(WeightsOf(x), combDraw, pb) && b == JitterAll(x, pb, jitterDraws, freshCov);
      CombParentsUnique(WeightsOf(x), combDraw, pa, pb);
    }
  }

  /** The choice of particleDensity3: the first index of the largest
      positive score, or index 0 when no score is positive. */
  predicate FirstMaxOrZero(scores: seq<real>, b: nat)
  {
    b < |scores| &&
    ((forall k :: 0 <= k < |scores| ==> scores[k] <= 0.0) ==> b == 0) &&
    ((exists k :: 0 <= k < |scores| && scores[k] > 0.0) ==>
       scores[b] > 0.0 &&
       (forall k :: 0 <= k < |scores| ==> scores[k] <= scores[b]) &&
       (forall k :: 0 <= k < b ==> scores[k] < scores[b]))
  }

  /** The choice of findMostSignificantParticle: the last index of the
      largest weight. */
  predicate LastMax(w: seq<real>, m: nat)
  {
    m < |w| &&
    (forall k :: 0 <= k < |w| ==> w[k] <= w[m]) &&
    (forall k :: m < k < |w| ==> w[k] < w[m])
  }

  /** Each rule names exactly one particle. */
  lemma FirstMaxOrZeroUnique(scores: seq<real>, b: nat, b': nat)
    requires FirstMaxOrZero(scores, b) && FirstMaxOrZero(scores, b')
    ensures b == b'
  {
  }

  lemma LastMaxUnique(w: seq<real>, m: nat, m': nat)
    requires LastMax(w, m) && LastMax(w, m')
    ensures m == m'
  {
    assert w[m] == w[m'];
  }

  /** Scan of particleDensity3: the running maximum starts at 0 and is only
      replaced by a strictly larger score, so the first index of the maximum
      wins, and index 0 is returned when no score is positive. */
  method DensestParticle(scores: seq<real>) returns (best: nat)
    requires |scores| > 0
    ensures FirstMaxOrZero(scores, best)
  {
    var maxProb := 0.0;
    best := 0;
    var i := 0;
    while i < |scores|
      invariant 0 <= i <= |scores|
      invariant best < |scores|
      invariant maxProb >= 0.0
      invariant maxProb == 0.0 ==> best == 0 && forall k :: 0 <= k < i ==> scores[k] <= 0.0
      invariant maxProb > 0.0 ==> best < i && scores[best] == maxProb
      invariant forall k :: 0 <= k < i ==> scores[k] <= maxProb
      invariant forall k :: 0 <= k < best ==> scores[k] < maxProb
    {
      if maxProb < scores[i] {
        maxProb := scores[i];
        best := i;
      }
      i := i + 1;
    }
  }

  /** Scan of findMostSignificantParticle: the first particle is always taken
      and every later one whose weight is at least the running maximum
      replaces it, so the last index of the maximum wins. */
  method MostSignificantIndex(w: seq<real>) returns (best: nat)
    requires |w| > 0
    ensures LastMax(w, best)
  {
    var larger := 0.0;
    best := 0;
    var i := 0;
    while i < |w|
      invariant 0 <= i <= |w|
      invariant best < |w|
      invariant i > 0 ==> best < i && larger == w[best]
      invariant forall k :: 0 <= k < i ==> w[k] <= larger
      invariant forall k :: best < k < i ==> w[k] < larger
    {
      if larger <= w[i] || i == 0 {
        larger := w[i];
        best := i;
      }
      i := i + 1;
    }
  }

  /** On a maximum attained by one particle only, the two scans pick that
      particle when it is positive; when it is not, particleDensity3 falls
      back to the first particle instead. */
  lemma TieBreaksOnUniqueMax(s: seq<real>, b: nat, m: nat)
    requires FirstMaxOrZero(s, b) && LastMax(s, m)
    requires forall k :: 0 <= k < |s| && k != m ==> s[k] < s[m]
    ensures s[m] > 0.0 ==> b == m
    ensures s[m] <= 0.0 ==> b == 0
  {
    if s[m] > 0.0 {
      assert s[b] > 0.0;
    }
  }
}

=== FILE: upf_schedule.dfy ===
/**
 Index arithmetic of the filter over its measurement log: the number of
 steps a run takes (configure), the batch of points consumed by step t
 (compute_y and correctionStep), and the sliding window of past batches
 folded into each particle's likelihood (likelihood).
 */
module Schedule {
  import opened Common

  /** Points consumed by one correction step: a measurement vector of
      dimension p holds p/3 three-dimensional points. */
  function PointsPerStep(p: nat): nat
  {
    p / 3
  }

  /** total_steps = floor(numMeas / (p/3)): the number of complete batches
      in the log. */
  function TotalSteps(numMeas: nat, p: nat): (total: nat)
    requires p >= 3
    ensures total * PointsPerStep(p) <= numMeas < (total + 1) * PointsPerStep(p)
  {
    numMeas / PointsPerStep(p)
  }

  /** Position in the log of point j of the batch read at step t (t counts from 1). */
  function BatchIndex(t: nat, j: nat, pointsPerStep: nat): nat
    requires t >= 1
  {
    (t - 1) * pointsPerStep + j
  }

  /** Every step of a run reads its whole batch inside the log. */
  lemma BatchInsideLog(numMeas: nat, p: nat, t: nat, j: nat)
    requires p >= 3
    requires 1 <= t <= TotalSteps(numMeas, p)
    requires j < PointsPerStep(p)
    ensures BatchIndex(t, j, PointsPerStep(p)) < numMeas
  {
    var pps := PointsPerStep(p);
    var total := TotalSteps(numMeas, p);
    MulMonotone(t, total, pps);
    assert (t - 1) * pps + j < t * pps;
  }

  /** Consecutive steps read disjoint, adjacent batches: the last point of
      step t is immediately followed by the first point of step t + 1. */
  lemma BatchesAdjacent(t: nat, pointsPerStep: nat)
    requires t >= 1 && pointsPerStep >= 1
    ensures BatchIndex(t, pointsPerStep - 1, pointsPerStep) + 1 == BatchIndex(t + 1, 0, pointsPerStep)
  {
  }

  lemma MulMonotone(a: nat, b: nat, c: nat)
    requires a <= b
    ensures a * c <= b * c
  {
  }

  /** First batch folded into the likelihood at step t. A window width equal
      to the particle count N means "every batch so far". */
  function InitialMeas(t: int, windowWidth: int, particleCount: int): (first: nat)
  {
    if windowWidth == particleCount then 0
    else if t - windowWidth < 0 then 0
    else t - windowWidth
  }

  /** The window holds every batch read so far when its width equals N;
      otherwise it holds the last windowWidth batches, or all of them when
      fewer have been read. */
  lemma WindowLength(t: nat, windowWidth: int, particleCount: int)
    requires windowWidth >= 0
    ensures windowWidth == particleCount ==> InitialMeas(t, windowWidth, particleCount) == 0
    ensures InitialMeas(t, windowWidth, particleCount) <= t
    ensures windowWidth != particleCount && windowWidth <= t ==>
              t - InitialMeas(t, windowWidth, particleCount) == windowWidth
    ensures windowWidth != particleCount && windowWidth > t ==> InitialMeas(t, windowWidth, particleCount) == 0
  {
  }

  /** Log positions visited by the likelihood of step t, in the order of its
      two nested loops: batch by batch, point by point. */
  function WindowIndices(first: nat, t: nat, pointsPerStep: nat): (r: seq<nat>)
    decreases t - first
  {
    if first >= t then []
    else seq(pointsPerStep, j => first * pointsPerStep + j) + WindowIndices(first + 1, t, pointsPerStep)
  }

  /** Every position in the window addresses a point of a batch already read. */
  lemma {:induction false} WindowIndicesBelow(first: nat, t: nat, pointsPerStep: nat)
    ensures |WindowIndices(first, t, pointsPerStep)| == (if first >= t then 0 else (t - first) * pointsPerStep)
    ensures forall k :: 0 <= k < |WindowIndices(first, t, pointsPerStep)| ==>
              first * pointsPerStep <= WindowIndices(first, t, pointsPerStep)[k] < t * pointsPerStep
    decreases t - first
  {
    if first < t {
      WindowIndicesBelow(first + 1, t, pointsPerStep);
      var head := seq(pointsPerStep, j => first * pointsPerStep + j);
      var rest := WindowIndices(first + 1, t, pointsPerStep);
      assert WindowIndices(first, t, pointsPerStep) == head + rest;
      MulMonotone(first + 1, t, pointsPerStep);
      assert (t - first) * pointsPerStep == pointsPerStep + (t - (first + 1)) * pointsPerStep;
    }
  }

  /** During a run (t <= total_steps) the likelihood never reads past the log. */
  lemma WindowInsideLog(numMeas: nat, p: nat, t: nat, windowWidth: int, particleCount: int)
    requires p >= 3
    requires t <= TotalSteps(numMeas, p)
    ensures forall k :: 0 <= k < |WindowIndices(InitialMeas(t, windowWidth, particleCount), t, PointsPerStep(p))| ==>
              WindowIndices(InitialMeas(t, windowWidth, particleCount), t, PointsPerStep(p))[k] < numMeas
  {
    WindowIndicesBelow(InitialMeas(t, windowWidth, particleCount), t, PointsPerStep(p));
    MulMonotone(t, TotalSteps(numMeas, p), PointsPerStep(p));
  }

  /** The inner loop of the likelihood: the log positions of batch i. */
  method BatchWalk(i: nat, pointsPerStep: nat) returns (batch: seq<nat>)
    ensures |batch| == pointsPerStep
    ensures forall m :: 0 <= m < pointsPerStep ==> batch[m] == i * pointsPerStep + m
  {
    var j := 0;
    batch := [];
    while j < pointsPerStep
      invariant 0 <= j <= pointsPerStep
      invariant |batch| == j
      invariant forall m :: 0 <= m < j ==> batch[m] == i * pointsPerStep + m
    {
      batch := batch + [i * pointsPerStep + j];
      j := j + 1;
    }
  }

  /**
   The index walk of likelihood(t, k): batches from the initial one up to
   t - 1, each of its pointsPerStep points in turn. Returns the visited log
   positions and the number of batches folded in (likelihood's count).
   */
  method LikelihoodWindow(t: nat, windowWidth: int, particleCount: int, pointsPerStep: nat)
    returns (visited: seq<nat>, count: nat)
    ensures visited == WindowIndices(InitialMeas(t, windowWidth, particleCount), t, pointsPerStep)
    ensures count == if InitialMeas(t, windowWidth, particleCount) < t then t - InitialMeas(t, windowWidth, particleCount) else 0
  {
    var first := InitialMeas(t, windowWidth, particleCount);
    visited := [];
    count := 0;
    if first >= t {
      return;
    }
    var i := first;
    while i < t
      invariant first <= i <= t
      invariant count == i - first
      invariant visited + WindowIndices(i, t, pointsPerStep) == WindowIndices(first, t, pointsPerStep)
    {
      var batch := BatchWalk(i, pointsPerStep);
      assert batch == seq(pointsPerStep, m => i * pointsPerStep + m);
      assert WindowIndices(i, t, pointsPerStep) == batch + WindowIndices(i + 1, t, pointsPerStep);
      visited := visited + batch;
      count := count + 1;
      i := i + 1;
    }
  }

  /**
   Exponent of the Gaussian likelihood over the window: batch k (counted
   from 0) contributes -0.5 * error_k / R, multiplied by k + 1 on the
   terminal step. The error of a batch is the summed squared distance of its
   points from the surface under the particle's pose.
   */
  function WindowExponent(errors: seq<real>, r: real, terminal: bool): real
    requires r != 0.0
  {
    if |errors| == 0 then 0.0
    else
      var k := |errors| - 1;
      var factor := if terminal then (k + 1) as real else 1.0;
      WindowExponent(errors[..k], r, terminal) + (-0.5 * errors[k] / r) * factor
  }

  /** Non-negative errors under a positive noise level give a non-positive
      exponent (a likelihood of at most one), and the terminal weighting
      never raises it above the ordinary one. */
  lemma {:induction false} WindowExponentBounds(errors: seq<real>, r: real)
    requires r > 0.0
    requires forall k :: 0 <= k < |errors| ==> errors[k] >= 0.0
    ensures WindowExponent(errors, r, false) <= 0.0
    ensures WindowExponent(errors, r, true) <= WindowExponent(errors, r, false)
  {
    if |errors| > 0 {
      var k := |errors| - 1;
      WindowExponentBounds(errors[..k], r);
      var term := -0.5 * errors[k] / r;
      assert term <= 0.0 by {
        assert errors[k] / r >= 0.0;
      }
      assert term * ((k + 1) as real) <= term;
    }
  }
}

=== FILE: upf_weights.dfy ===
/**
 Particle weights of the unscented particle filter: the likelihood update
 (computeWeights), the normalisation that also accumulates the sum of
 squared weights (normalizeWeights), and the scaled unscented-transform
 weights of the 2n+1 sigma points (computeSigmaPoints and the lambda of
 configure).
 */
module Weights {
  import opened Common

  /** The weights after multiplying each by its particle's likelihood. */
  function Reweight(w: seq<real>, likelihood: seq<real>): (r: seq<real>)
    requires |w| == |likelihood|
    ensures |r| == |w|
  {
    seq(|w|, i requires 0 <= i < |w| => w[i] * likelihood[i])
  }

  /** Every weight divided by the total. */
  function Normalize(w: seq<real>): (r: seq<real>)
    requires Sum(w) != 0.0
    ensures |r| == |w|
    ensures Sum(r) == 1.0
    ensures forall i :: 0 <= i < |w| ==> r[i] * Sum(w) == w[i]
  {
    var total := Sum(w);
    var r := seq(|w|, i requires 0 <= i < |w| => w[i] / total);
    SumScale(w, r, 1.0 / total);
    r
  }

  /** Normalising a vector that already sums to one returns it unchanged. */
  lemma NormalizeIdempotent(w: seq<real>)
    requires Sum(w) == 1.0
    ensures Normalize(w) == w
  {
  }

  /** Non-negative weights with a positive total normalise into [0, 1]. */
  lemma NormalizeBounded(w: seq<real>)
    requires forall i :: 0 <= i < |w| ==> w[i] >= 0.0
    requires Sum(w) > 0.0
    ensures forall i :: 0 <= i < |w| ==> 0.0 <= Normalize(w)[i] <= 1.0
  {
    var r := Normalize(w);
    forall i | 0 <= i < |w|
      ensures 0.0 <= r[i] <= 1.0
    {
      SingleBelowSum(w, i);
      assert r[i] == w[i] / Sum(w);
      UnitFraction(w[i], Sum(w));
    }
  }

  lemma UnitFraction(a: real, s: real)
    requires 0.0 <= a <= s && s > 0.0
    ensures 0.0 <= a / s <= 1.0
  {
    var q := a / s;
    assert q * s == a;
    assert (1.0 - q) * s == s - a;
  }

  /** A non-negative element never exceeds the sum of its sequence. */
  lemma {:induction false} SingleBelowSum(w: seq<real>, i: nat)
    requires forall k :: 0 <= k < |w| ==> w[k] >= 0.0
    requires i < |w|
    ensures w[i] <= Sum(w)
  {
    var init := w[..|w| - 1];
    if i == |w| - 1 {
      SumNonNegative(init);
    } else {
      SingleBelowSum(init, i);
    }
  }

  /** computeWeights over the whole population: each weight is multiplied
      by its likelihood while the total is accumulated. */
  method ComputeWeights(w: seq<real>, likelihood: seq<real>) returns (scaled: seq<real>, sum: real)
    requires |w| == |likelihood|
    ensures scaled == Reweight(w, likelihood)
    ensures sum == Sum(scaled)
  {
    scaled := [];
    sum := 0.0;
    var i := 0;
    while i < |w|
      invariant 0 <= i <= |w|
      invariant |scaled| == i
      invariant forall k :: 0 <= k < i ==> scaled[k] == w[k] * likelihood[k]
      invariant sum == Sum(scaled)
    {
      SumAppend(scaled, w[i] * likelihood[i]);
      scaled := scaled + [w[i] * likelihood[i]];
      sum := sum + w[i] * likelihood[i];
      i := i + 1;
    }
    assert forall k :: 0 <= k < |w| ==> Reweight(w, likelihood)[k] == scaled[k];
  }

  /** normalizeWeights over the whole population: each weight is divided by
      the total while the sum of the squared results is accumulated. */
  method NormalizeWeights(w: seq<real>, sum: real) returns (r: seq<real>, sumSquared: real)
    requires sum == Sum(w) && sum != 0.0
    ensures r == Normalize(w)
    ensures Sum(r) == 1.0
    ensures sumSquared == SumSquares(r)
  {
    var target := Normalize(w);
    r := [];
    sumSquared := 0.0;
    var i := 0;
    while i < |w|
      invariant 0 <= i <= |w|
      invariant r == target[..i]
      invariant sumSquared == SumSquares(r)
    {
      var v := w[i] / sum;
      NormalizeAt(w, i);
      SumSquaresAppend(r, v);
      assert target[..i + 1] == target[..i] + [v];
      r := r + [v];
      sumSquared := sumSquared + v * v;
      i := i + 1;
    }
    assert r == target;
  }

  lemma NormalizeAt(w: seq<real>, i: nat)
    requires Sum(w) != 0.0 && i < |w|
    ensures Normalize(w)[i] == w[i] / Sum(w)
  {
  }

  lemma SumSquaresAppend(s: seq<real>, x: real)
    ensures SumSquares(s + [x]) == SumSquares(s) + x * x
  {
    assert (s + [x])[..|s|] == s;
  }

  /** Scaled unscented-transform parameter: lambda = alpha^2 (6 + kappa) - 6,
      with the state dimension written as the constant 6. */
  function Lambda(alpha: real, kappa: real): real
  {
    alpha * alpha * (6.0 + kappa) - 6.0
  }

  /** The sigma-point weights divide by n + lambda = alpha^2 (6 + kappa):
      for the six-dimensional pose state they are defined exactly when
      alpha is not zero and kappa is not -6. */
  lemma SigmaWeightsDefined(alpha: real, kappa: real)
    ensures 6.0 + Lambda(alpha, kappa) != 0.0 <==> alpha != 0.0 && kappa != -6.0
  {
    var a2 := alpha * alpha;
    ProductZero(alpha, alpha, a2);
    ProductZero(a2, 6.0 + kappa, 6.0 + Lambda(alpha, kappa));
  }

  /** A product is zero exactly when one of its factors is. */
  lemma ProductZero(x: real, y: real, p: real)
    requires p == x * y
    ensures p == 0.0 <==> x == 0.0 || y == 0.0
  {
  }

  /** Weights used for the sigma-point mean and covariance reductions. */
  datatype SigmaWeights = SigmaWeights(mean: seq<real>, covariance: seq<real>)

  function SigmaPointWeights(n: nat, lambda: real, alpha: real, beta: real): (sw: SigmaWeights)
    requires n as real + lambda != 0.0
    ensures |sw.mean| == 2 * n + 1 && |sw.covariance| == 2 * n + 1
    ensures sw.mean[0] == lambda / (n as real + lambda)
    ensures sw.covariance[0] == sw.mean[0] + 1.0 - alpha * alpha + beta
    ensures forall j :: 1 <= j < 2 * n + 1 ==>
              sw.mean[j] == 1.0 / (2.0 * (n as real + lambda)) && sw.covariance[j] == sw.mean[j]
    ensures Sum(sw.mean) == 1.0
  {
    var w0 := lambda / (n as real + lambda);
    var wi := 1.0 / (2.0 * (n as real + lambda));
    var tail := seq(2 * n, j => wi);
    var mean := [w0] + tail;
    var covariance := [w0 + 1.0 - alpha * alpha + beta] + tail;
    SumPrepend(w0, tail);
    SumConstant(tail, wi);
    SigmaMeanTotal(n as real, lambda);
    SigmaWeights(mean, covariance)
  }

  lemma SigmaMeanTotal(n: real, lambda: real)
    requires n + lambda != 0.0
    ensures lambda / (n + lambda) + (2.0 * n) * (1.0 / (2.0 * (n + lambda))) == 1.0
  {
    var s := n + lambda;
    calc {
      lambda / s + (2.0 * n) * (1.0 / (2.0 * s));
      lambda / s + n / s;
      (lambda + n) / s;
      1.0;
    }
  }
}
